=== FILE: README.md ===
# bloodBank: state machines, sprite clock and ward bookkeeping in Dafny

This project models the reusable core of the bloodBank game and proves
properties about it. The core is made of three parts:

- **The state-machine framework.** A `StateMachine` holds at most one
  `State`. Its `ChangeState`, `Reset` and `Update` calls run the state's
  `OnStart`, `OnFinish` and `OnUpdate` hooks.
- **The sprite frame clock.** Every animation state shares it: the frame
  index is `(int)((now - start) / (1.0 / fps)) % length`. One-shot states
  (attack, metamorphosis, death) run their completion action only on a tick
  whose index is exactly the last frame.
- **The game bookkeeping built on it.** This covers the door's open/close
  flags and its spawn latch, the six-bed availability array, patient spawning
  and removal, the score, and the vampire's clamped bat points and health,
  death latch, per-second bat-point drain and bite.

Engine calls are replaced by inputs and outputs:

- Time is a natural number of milliseconds.
- Keyboard state is a set of keys.
- The sprite a state writes is returned as its result.
- The patient hit by the vampire's ray is an `Option`.
- Random choices are caller-supplied numbers.
- Timers that the game accumulates in floats are booleans ("the cooldown has
  run out", "a second has passed").

Modules, one per source component:

- `Wrappers`: `Option`, `Result` and the runtime faults the C# code can raise.
- `Sequences`: `System.Array.Reverse` as sequence reversal.
- `FrameClock`: the frame count and index, fine and coarse sampling.
- `StateMachine`: a generic `Machine<S>` with an id (the target of a state's
  back-reference), an `Option` current state, and the trace of hook calls.
  `Replay` reads a trace by the lifecycle rules, independently of the machine
  operations: a state starts only on an empty machine, and only the running
  state is ticked or finished. Every operation keeps the trace replayable to
  the current state.
- `Animation`: every state class as one tagged `State` variant, plus the
  frame logic the animation states share.
- `Door`, `MainGameController`, `Patient`, `Vampire`: the four behaviour
  scripts. `Vampire.Tick` is the one dispatch over every state's `OnUpdate`.

`StateMachine.IsFinished` is the predicate `current == None`. The contracts
of `ChangeState` (not finished afterwards) and `Reset` (finished afterwards)
state its meaning.

## Model

| member | source | states |
|---|---|---|
| `Sequences.Reverse` | Assets/Scripts/StateMachine.cs:204 | element `i` of the result is element `n-1-i` of the input, and the length is kept |
| `Sequences.ReverseReverse` | Assets/Scripts/StateMachine.cs:224-230 | reversing twice gives back the original order, so one shared array can serve both playback directions |
| `Sequences.ReversePermutes` | Assets/Scripts/Door.cs:43 | reversal only reorders: the multiset of sprites is unchanged |
| `FrameClock.FrameIndex` | Assets/Scripts/StateMachine.cs:118 | for a non-empty array the index is always inside the array, so the sprite access is in bounds |
| `FrameClock.FrameCountMonotone` | Assets/Scripts/StateMachine.cs:215 | the frame count never goes backwards as time advances |
| `FrameClock.FrameCountStep` | Assets/Scripts/StateMachine.cs:289 | between two samples at most one frame period apart, the frame count rises by at most one |
| `FrameClock.IndexAdvancesByOne` | Assets/Scripts/StateMachine.cs:450 | when the count rises by one, the index moves to the next frame, wrapping from the last frame to frame 0 (no clamping) |
| `FrameClock.EveryFrameObserved` | Assets/Scripts/StateMachine.cs:483 | under fine sampling, every frame count between the first and last sample is seen by some sample |
| `FrameClock.OneShotCompletesUnderFineSampling` | Assets/Scripts/StateMachine.cs:324-330 | a one-shot state sampled at least once per frame period, until its last frame is due, does land on the last frame |
| `FrameClock.BoundaryMissed` | Assets/Scripts/StateMachine.cs:396-402 | the boundary-only rule is kept: samples at 499 ms and 667 ms step over the last frame of a 4-frame, 6 fps playback; neither sample completes, and the playback has wrapped to frame 0 |
| `FrameClock.HalfSecondShowsLastFrame` | Assets/Scripts/Door.cs:32-35 | 4 frames at 6 fps show frame 3, the last one, at 0.5 s |
| `StateMachine.ChangeState` | Assets/Scripts/StateMachine.cs:8-18 | afterwards the machine is not finished, runs `s`, and `s` points back at this machine; the history is kept, then `Finish(old)` (if any) is appended strictly before `Start(s)`; validity is preserved |
| `StateMachine.Reset` | Assets/Scripts/StateMachine.cs:20-24 | afterwards the machine is finished; an empty machine is returned unchanged, with no hook run; otherwise exactly one `Finish` of the running state is appended; validity is preserved |
| `StateMachine.Update` | Assets/Scripts/StateMachine.cs:26-31 | an empty machine is unchanged; otherwise exactly one `Tick` of the running state is appended and the state stays; validity is preserved |
| `StateMachine.ConcludeState` | Assets/Scripts/StateMachine.cs:52 | the machine named by the state's back-reference is reset and finished; every other machine is untouched |
| `StateMachine.ResetIdempotent` | Assets/Scripts/StateMachine.cs:20-24 | resetting twice is the same as resetting once |
| `StateMachine.ConcludeAfterChange` | Assets/Scripts/StateMachine.cs:52 | a state that concludes itself after being installed leaves its own machine finished, with its `OnFinish` as the last hook |
| `StateMachine.RunValid` | Assets/Scripts/StateMachine.cs:5-36 | any sequence of `ChangeState`/`Reset`/`Update` calls keeps the machine valid: hooks in lifecycle order, back-reference correct |
| `StateMachine.StartsMatchFinishes` | Assets/Scripts/StateMachine.cs:8-24 | in a well-ordered trace, starts equal finishes plus one if a state is running, so no state is started or finished twice |
| `StateMachine.FinishBetweenStarts` | Assets/Scripts/StateMachine.cs:8-18 | between any two `OnStart` calls of a well-ordered trace, an `OnFinish` call occurs |
| `StateMachine.LifecycleOrder` | Assets/Scripts/StateMachine.cs:5-36 | for every call sequence on a new machine: the trace replays to the current state, starts match finishes, and a finish separates any two starts |
| `Animation.FrameShown` | Assets/Scripts/StateMachine.cs:113-119 | an empty array gives no frame (the early return); otherwise the index lies in `[0, length)` and is the frame count modulo the length |
| `Animation.SpriteShown` | Assets/Scripts/StateMachine.cs:445-451 | none is written for an empty array; otherwise the sprite written is the state's own sprite at the clock's index (frame count modulo the length) |
| `Animation.Loop` | Assets/Scripts/StateMachine.cs:476-485 | a looping state writes its sprite at the clock's index, so playback cycles through the array; it has no exit of its own |
| `Animation.CompletesIsLastFrame` | Assets/Scripts/StateMachine.cs:218 | a one-shot state completes on a tick exactly when the clock's index on that tick is the last frame |
| `Door.Init` | Assets/Scripts/Door.cs:21-25 | the door starts neither opening nor closing, with no spawn pending |
| `Door.OpenDoor` | Assets/Scripts/Door.cs:56-62 | has no effect unless the door is idle; from idle it starts an opening at `now`; it never makes both flags true |
| `Door.TriggerExit` | Assets/Scripts/Door.cs:64-70 | only a patient leaving an idle door starts a closing; anything else changes nothing |
| `Door.Update` | Assets/Scripts/Door.cs:28-47 | an idle door writes no sprite; a moving door faults (`% 0`) exactly when it has no sprites; otherwise it writes the sprite at the clock's index; only on the last-frame tick are both flags cleared and the array reversed; the spawn latch is raised only when an opening completes; exclusivity is kept |
| `Door.LateUpdate` | Assets/Scripts/Door.cs:49-54 | asks for exactly one spawn if the latch was set, and always clears it |
| `Door.Step` | Assets/Scripts/Door.cs:28-70 | no callback makes the door opening and closing at once |
| `Door.AlwaysExclusive` | Assets/Scripts/Door.cs:56-69 | over any run of callbacks, `doorOpening` and `doorClosing` are never both true |
| `Door.NeverOpeningAndClosing` | Assets/Scripts/Door.cs:21-25 | from `Start` on, whatever happens, the two flags are never both true |
| `Door.OpenCloseCycle` | Assets/Scripts/Door.cs:35-44 | an open followed by a close plays the array forwards, then backwards, and leaves it in its original order; only the opening requests a spawn |
| `MainGameController.Init` | Assets/Scripts/MainGameController.cs:21-32 | six beds, all available, and score 0 |
| `MainGameController.SetScore` | Assets/Scripts/MainGameController.cs:26-30 | the score stores exactly the assigned value, and the beds are untouched |
| `MainGameController.OpenDoorIfBedAvailable` | Assets/Scripts/MainGameController.cs:48-55 | `OpenDoor` is called at most once, and exactly when some bed is available; otherwise the door is untouched; the scan agrees with the timer callback that the ward steps use |
| `MainGameController.FreeBeds` | Assets/Scripts/MainGameController.cs:59-63 | the candidate list holds exactly the available beds, in increasing order; it is non-empty iff some bed is free |
| `MainGameController.SpawnPatient` | Assets/Scripts/MainGameController.cs:58-70 | fails (empty-list index) exactly when no bed is free; otherwise the chosen bed was free and is now taken, all other beds and the score are unchanged, and the new walking patient has that bed |
| `MainGameController.SpawnPicks` | Assets/Scripts/MainGameController.cs:64-65 | when some bed is free the spawn succeeds, and the bed it takes is the candidate the draw selects |
| `MainGameController.EveryFreeBedCanBeChosen` | Assets/Scripts/MainGameController.cs:64 | each available bed is the outcome of some random draw |
| `MainGameController.SpawnThenRemoveRestoresBeds` | Assets/Scripts/MainGameController.cs:64-69 | removing a freshly spawned patient gives back exactly the bed array from before the spawn |
| `MainGameController.StepAsWritten` | Assets/Scripts/MainGameController.cs:48-70 | one callback as the game is written (timer, door `Update`, door `LateUpdate`, doorway exit, removal); it faults exactly in the three throwing cases: a moving door without sprites, a spawn with no free bed, a removal with an out-of-range bed; it keeps the bed count, and only a spawn or a removal touches the beds or score |
| `MainGameController.OpenIfBedUnclaimed` | Assets/Scripts/MainGameController.cs:48-57 | the corrected timer callback: it leaves the door alone while a spawn is pending, and otherwise agrees with the written callback; any change it makes is an `OpenDoor` of an idle door with a free bed |
| `MainGameController.Step` | Assets/Scripts/MainGameController.cs:48-70 | every callback is the written one except the timer, which is the corrected one |
| `MainGameController.StepKeepsWardOk` | Assets/Scripts/MainGameController.cs:48-70 | with the corrected timer, every callback from a valid ward succeeds and keeps it valid, in any interleaving of the door's `Update` and `LateUpdate` with the timer; a spawn never meets a full ward |
| `MainGameController.Run` | Assets/Scripts/MainGameController.cs:36-38 | any run of callbacks from a valid ward, with the corrected timer, ends in a valid ward without a fault |
| `MainGameController.DoubleSpawnFault` | Assets/Scripts/MainGameController.cs:57-64 | the written callbacks fault from a valid ward: the timer firing between the door's `Update` and `LateUpdate` reopens the door onto the last free bed, and the second spawn indexes an empty candidate list; the corrected timer runs the same callbacks without a fault |
| `MainGameController.NewWardOk` | Assets/Scripts/MainGameController.cs:21 | a new game with a non-empty door animation starts in a valid ward |
| `Patient.Awake` | Assets/Scripts/Patient.cs:19-27 | a new patient is walking, keeps the sprite arrays it was built with, and plays the walk animation on a valid machine |
| `Patient.FixedUpdate` | Assets/Scripts/Patient.cs:31-36 | the settle transition fires only when the target is reached while walking; it clears `walking` and switches to the idle animation; `walking` is never set back to true |
| `Patient.Update` | Assets/Scripts/Patient.cs:54-56 | one machine tick; an empty machine writes nothing; a running animation writes exactly its looping sprite for the tick |
| `Patient.Bitten` | Assets/Scripts/Patient.cs:58-64 | the collider is disabled, the bitten sprite plays and removal is scheduled; the bed and walking flag are kept |
| `Patient.SetTarget` | Assets/Scripts/Patient.cs:66-69 | the given bed index is recorded and nothing else changes |
| `Patient.RemoveFromBed` | Assets/Scripts/Patient.cs:71-74 | the patient's own bed becomes available and no other slot changes |
| `Patient.SettlesAtMostOnce` | Assets/Scripts/Patient.cs:31-36 | over any run of physics ticks and bites, the patient settles at most once, and never if it had already stopped walking |
| `Vampire.SetBatPoints` | Assets/Scripts/Vampire.cs:41-47 | stores `min(value, totalBatPoints)`; values at or below the cap are stored unchanged |
| `Vampire.KillVampire` | Assets/Scripts/Vampire.cs:199-204 | the movement machine runs the empty stunned state and the animation machine runs the death animation |
| `Vampire.SetHealth` | Assets/Scripts/Vampire.cs:72-89 | stores `min(value, 100)`; `isDead` becomes set iff it was set or the value is `<= 0`; the kill happens exactly on the first non-positive assignment, and otherwise only the stored health changes |
| `Vampire.DeathLatch` | Assets/Scripts/Vampire.cs:83-86 | once dead, no health assignment touches either machine |
| `Vampire.KilledAtMostOnce` | Assets/Scripts/Vampire.cs:83-86 | over any sequence of health assignments, `KillVampire` runs at most once, and never if already dead |
| `Vampire.Start` | Assets/Scripts/Vampire.cs:102-114 | the vampire keeps the inspector configuration it was given; the animation machine idles on `move[0]`, the movement machine runs normal movement, bat points are full, health is 100 |
| `Vampire.Transform` | Assets/Scripts/StateMachine.cs:157-158 | installs a metamorphosis toward the other form and flips `isBat`; the shared array is reversed exactly when turning back to human |
| `Vampire.BatSecond` | Assets/Scripts/Vampire.cs:121-134 | subtracts `batDeplete` in bat form, or adds `batRegen`, through the setter; when that leaves points `<= 0`, stores 0 through the setter, starts a metamorphosis, toggles `isBat`, and reverses the shared array exactly when turning back to human, changing nothing else; otherwise only the points change |
| `Vampire.Attack` | Assets/Scripts/Vampire.cs:184-197 | a bite counts only on a patient the ray can hit (collider enabled) that is not walking: then score +1, health gets `+health_restored` through the setter, and the patient is bitten, which disables its collider so it cannot be scored again; otherwise nothing changes; the bite changes the animation only by killing the vampire |
| `Vampire.HunterContact` | Assets/Scripts/Vampire.cs:158-166 | damage (and a cooldown reset) happens iff the hunter is not hiding and the cooldown has elapsed |
| `Vampire.PassiveDamage` | Assets/Scripts/Vampire.cs:154-156 | health becomes exactly `health - continuous_damage` unless that exceeds 100; death follows iff that is `<= 0`; without a kill nothing else changes, and a kill stuns the vampire and plays the death animation |
| `Vampire.PressArrows` | Assets/Scripts/StateMachine.cs:72-82 | no arrow pressed leaves the vampire unchanged; otherwise the machine ends on the walk of the last arrow checked |
| `Vampire.HeldKeyOnUpdate` | Assets/Scripts/StateMachine.cs:111-135 | with sprites, the walk returns to idle on its first frame exactly when its key is released; with an empty array it never ends |
| `Vampire.NormalMovementOnUpdate` | Assets/Scripts/StateMachine.cs:145-176 | does nothing in bat form; in human form A with points starts the change to bat; D installs the attack animation (unless the bite kills), and on a patient lying in bed with its collider on it adds exactly one to the score and leaves that patient bitten; without such a patient D leaves score, beds and target alone |
| `Vampire.BatMovementOnUpdate` | Assets/Scripts/StateMachine.cs:242-256 | A starts the change back to human form only while in bat form |
| `Vampire.MetamorphosisOnUpdate` | Assets/Scripts/StateMachine.cs:208-232 | nothing changes except on the last frame; there, to-bat ends in bat animation and bat movement, and to-human ends in idle and normal movement and reverses the shared array again |
| `Vampire.AttackOnUpdate` | Assets/Scripts/StateMachine.cs:317-331 | returns to idle on the last frame and only then |
| `Vampire.DeathOnUpdate` | Assets/Scripts/StateMachine.cs:390-404 | destroys the vampire on the last frame and only then |
| `Vampire.DamagedOnUpdate` | Assets/Scripts/StateMachine.cs:352-357 | once the countdown is over, the state concludes and empties its own machine; otherwise nothing changes |
| `Vampire.Tick` | Assets/Scripts/StateMachine.cs:26-31 | an empty machine does nothing; every state's `OnUpdate` keeps both machines valid; the death latch is never cleared; which handler each state runs is stated by the dispatch lemmas below |
| `Vampire.Update` | Assets/Scripts/Vampire.cs:148-152 | an animation tick keeps the vampire's machines valid; the lemmas below pin what each animation state does on it |
| `Vampire.FixedUpdate` | Assets/Scripts/Vampire.cs:117-134 | a movement tick plus the bat second keeps both machines valid and never clears the death latch; `FixedUpdateDrains` ties it to `Tick` and `BatSecond` |
| `Vampire.AttackEndsOnLastFrame` | Assets/Scripts/StateMachine.cs:324-330 | an attack animation is replaced by idle on `move[0]` on the last-frame tick, and stays on every other tick |
| `Vampire.DeathEndsOnLastFrame` | Assets/Scripts/StateMachine.cs:396-402 | the vampire is destroyed on a tick iff the clock's index is the last frame |
| `Vampire.WalkEndsOnRelease` | Assets/Scripts/StateMachine.cs:133-134 | a walk becomes idle on its first sprite iff it has sprites and its key is not held |
| `Vampire.StunnedDoesNothing` | Assets/Scripts/StateMachine.cs:407-412 | ticking the stunned state only records the hook: no sprite, no other change |
| `Vampire.KillingStunsAndPlaysDeath` | Assets/Scripts/Vampire.cs:83-86 | the killing assignment leaves the vampire dead, stunned and playing the death animation, with valid machines |
| `Vampire.ToHumanRestoresSharedArray` | Assets/Scripts/StateMachine.cs:199-230 | a to-human metamorphosis that runs to its last frame leaves the shared `toBat` array in its original order, in human form, idle and moving normally |
| `Vampire.ToBatSettles` | Assets/Scripts/StateMachine.cs:218-223 | a to-bat metamorphosis that runs to its last frame ends in bat form, with bat animation and bat movement, and the array untouched |
| `Vampire.IdleStartsWalk` | Assets/Scripts/StateMachine.cs:72-81 | an animation tick of the idle state changes it to the walk of the last arrow key pressed this frame, in the order down, up, right, left; with no arrow pressed only the hook is recorded; score, target and movement are untouched |
| `Vampire.LastPressedIsLast` | Assets/Scripts/StateMachine.cs:74-81 | a pressed arrow key with no pressed arrow tested after it is the one whose walk ends up installed |
| `Vampire.OneArrowStartsItsWalk` | Assets/Scripts/StateMachine.cs:72-81 | any single arrow key pressed on its own from idle installs the walk for that key |
| `Vampire.FixedUpdateRunsNormalMovement` | Assets/Scripts/Vampire.cs:117-118 | a movement tick in normal movement (no bat second due) is exactly `NormalMovementOnUpdate` on the ticked machine, with no sprite written |
| `Vampire.AttackKeyBites` | Assets/Scripts/StateMachine.cs:170-173 | in human form with D pressed, a movement tick on a patient lying in bed adds exactly one to the score, keeps the beds, and leaves the patient bitten |
| `Vampire.FixedUpdateRunsBatMovement` | Assets/Scripts/StateMachine.cs:242-256 | a movement tick in bat movement is `BatMovementOnUpdate`; A in bat form starts the metamorphosis back to human at that tick |
| `Vampire.BatFlightLoops` | Assets/Scripts/StateMachine.cs:282-291 | an animation tick in bat flight writes the looping sprite `Loop(c, now)` and changes nothing but the hook record |
| `Vampire.DamagedConcludes` | Assets/Scripts/StateMachine.cs:352-357 | once the countdown is over the damaged state's machine is left empty; before that the tick only records the hook; no sprite, score or target change |
| `Vampire.FixedUpdateDrains` | Assets/Scripts/Vampire.cs:117-134 | with the second due, `FixedUpdate` is the movement tick followed by `BatSecond`; without it, the movement tick alone |

## Left out

- Engine plumbing is not modelled: `Rigidbody` velocities (and so `time_delta_fraction`), `SpriteRenderer.color`, the `flipX` and rotation of a settling patient, `AudioSource`, UI sliders and texts, `print`, scene loading and `Application.Quit`. Each has no effect on the modelled state.
- The physics layers set by the `isBat` setter are not modelled. They decide which hunter colliders can touch the vampire, and hunter contacts are an input of `Vampire.HunterContact` here.
- Sprite writes are not modelled as renderer state. A tick returns the sprite it writes. The sprite an `OnStart` writes (`StateIdleWithSprite`) is recorded only through the state value.
- `Destroy` of the vampire and `ShowRestartPanel` become the `destroyed` flag. `Destroy` of a patient and `Instantiate` become removal from, and appending to, the ward's patient list.
- Float time is replaced by whole milliseconds. Float rounding at frame boundaries is not modelled.
- A state is built with its start time already set. The source's constructors and `OnStart` run in the same call at the same `Time.time`, so this gives the same start time.
- `fps` is a natural number. A negative rate, which would give a negative index, is not modelled. With `fps == 0` the model gives frame 0, as the C# division by infinity does.
- `StateVampireDamaged`'s 0.2 s countdown is the boolean `damageOver`.
- The hit and damage cooldown timers are the boolean `cooldownElapsed`. The damage-timer reset in `Vampire.OnTriggerExit` is not modelled.
- The bat-power timer is the boolean `batSecondDue`.
- The wolf cooldown, the S key and `Hunter.RunToCorner` are not modelled, because they act only on hunters.
- The `Flasher` coroutine that `Health` starts is not modelled.
- `InvokeRepeating` and `Invoke` (door timer, passive damage, delayed `RemoveFromBed`) become explicit events. Their timing is not modelled.
- `Random.Range` becomes a caller-supplied `choice`. The index taken is `choice % count`. `EveryFreeBedCanBeChosen` shows that every free bed is reachable this way.
- The raycast in `Vampire.Attack` becomes an optional target patient. A hit on an object with no `Patient` component (a null reference in the source) is not modelled.
- `ChangeState(null)` would throw a null reference in the source. The model's `ChangeState` always takes a state, so this case does not arise.
- A metamorphosis state's captured `animation_length` is read as the length of the shared array at tick time. Reversal keeps that length, so the two are equal.
- `Door.Step` ignores a tick stamped before the playback started. `MainGameController.StepAsWritten` does the same for the door's `Update`. Such a tick cannot happen, since time does not run backwards.
- `Hunter.cs` is not part of this model: its chase, idle and hide decisions sit on path finding and physics queries. The hunter's `hiding` flag is an input to `Vampire.HunterContact`.
- `TitleController.cs` is not modelled: it only toggles UI panels and loads scenes.
- `TitleAnimation.cs` and `Fireplace.cs` are not modelled separately. Each installs one looping state (`TitleAnimationState`, `AIPlayAnimation`) that `Animation.Loop` covers.
- `Vampire.Tick`: its contract states only the invariants every state keeps; putting each state's behaviour there is too costly to prove. The lemmas `IdleStartsWalk`, `FixedUpdateRunsNormalMovement`, `FixedUpdateRunsBatMovement`, `BatFlightLoops`, `DamagedConcludes`, `AttackEndsOnLastFrame`, `DeathEndsOnLastFrame`, `WalkEndsOnRelease`, `StunnedDoesNothing` and `UpdateRunsMetamorphosis` state what the dispatch runs in each state.
- `Vampire.Update`: its contract keeps validity only; the animation-state lemmas named on the `Vampire.Tick` line state its behaviour.
- `Vampire.FixedUpdate`: its contract keeps validity and the death latch only; `FixedUpdateDrains`, `FixedUpdateRunsNormalMovement`, `AttackKeyBites` and `FixedUpdateRunsBatMovement` state its behaviour.
- `Vampire.Start`, `Vampire.MetamorphosisOnUpdate`, `Vampire.AttackOnUpdate` and the `Ready` invariant require a non-empty `move` array. The source reads `move[0]` (Vampire.cs:106, StateMachine.cs:226 and 329) and would throw on an empty one. That fault is not modelled, because an empty array leaves the vampire without its idle sprite from the first frame on.
- `MainGameController.StepAsWritten` ignores a removal event for a patient not in the list. The source's delayed `RemoveFromBed` always belongs to a live patient.
- `Patient.removalScheduled` records the pending `Invoke("RemoveFromBed")`. The removal itself is the ward's `RemovePatient` event.

## Findings

| source | as written | input that shows it | evidently intended | confidence | as-written member | corrected member |
|---|---|---|---|---|---|---|
| Assets/Scripts/MainGameController.cs:48-64 | `OpenDoorIfBedAvailible` opens the door whenever a bed is free, even while the spawn the door has already asked for is still to take a bed | beds `[F,F,F,F,F,T]`, door opening from 0 ms with 4 sprites; at 500 ms the door's `Update` completes the opening, the timer fires before `LateUpdate` and reopens the door, the spawn takes bed 5, and at 1000 ms the second spawn indexes an empty `randomBeds` | the door opens only when a spawn will find a bed ("Spawns patient if there is a bed availble", MainGameController.cs:57) | medium; not executed; it requires the repeating timer to fire in the same frame as the door's completion, between `Update` and `LateUpdate` | `MainGameController.DoubleSpawnFault` | `MainGameController.StepKeepsWardOk` |

=== FILE: animation.dfy ===
/** The concrete states of the game, as one tagged variant, and the frame
    logic that every animation state repeats: an early return for an empty
    sprite array, then `frames[FrameIndex(now - start)]`. */
module Animation {
  import opened Wrappers
  import opened FrameClock
  import StateMachine

  /** Handle of a sprite asset. */
  type Sprite = nat

  /** The keys the behaviour states read. */
  datatype Key = DownArrow | UpArrow | RightArrow | LeftArrow | KeyA | KeyS | KeyD

  /** A playback: the sprite array, its rate, and the instant (ms) its state
      was installed, which is when `OnStart` reads the clock. */
  datatype Clip = Clip(frames: seq<Sprite>, fps: nat, start: nat)

  /** One variant per state class. A metamorphosis carries no sprites of its
      own: it plays the vampire's shared `toBat` array, which it may reverse
      in place, so its owner supplies that array on every tick. */
  datatype State =
    | IdleWithSprite(sprite: Sprite)
    | PlayAnimationForHeldKey(clip: Clip, key: Key)
    | VampireNormalMovement
    | VampireMetamorphosis(fps: nat, start: nat, toBat: bool)
    | BatMovement
    | BatAnimation(clip: Clip)
    | VampireAttack(clip: Clip)
    | VampireDamaged
    | VampireDeath(clip: Clip)
    | VampireStunned
    | PlayMovementAnimation(clip: Clip)
    | AIPlayAnimation(clip: Clip)
    | TitleAnimationState(clip: Clip)

  type Machine = StateMachine.Machine<State>

  /** The state was installed no later than `now`: time never runs backwards. */
  predicate StartedBy(s: State, now: nat)
  {
    match s
    case PlayAnimationForHeldKey(c, _) => c.start <= now
    case VampireMetamorphosis(_, start, _) => start <= now
    case BatAnimation(c) => c.start <= now
    case VampireAttack(c) => c.start <= now
    case VampireDeath(c) => c.start <= now
    case PlayMovementAnimation(c) => c.start <= now
    case AIPlayAnimation(c) => c.start <= now
    case TitleAnimationState(c) => c.start <= now
    case _ => true
  }

  predicate MachineStartedBy(m: Machine, now: nat)
  {
    m.current.Some? ==> StartedBy(m.current.value.state, now)
  }

  /** Index of the sprite an animation state writes on a tick at `now`, or
      `None` when the array is empty and `OnUpdate` returns before touching
      it. An index that is produced is always inside the array. */
  function FrameShown(frames: seq<Sprite>, fps: nat, start: nat, now: nat): (r: Option<nat>)
    requires start <= now
    ensures r.None? <==> |frames| == 0
    ensures r.Some? ==> r.value < |frames|
    ensures r.Some? ==> FrameCount(now - start, fps) % |frames| == r.value
  {
    if |frames| == 0 then None else Some(FrameIndex(now - start, fps, |frames|))
  }

  /** The sprite written on that tick. */
  function SpriteShown(frames: seq<Sprite>, fps: nat, start: nat, now: nat): (r: Option<Sprite>)
    requires start <= now
    ensures r.None? <==> |frames| == 0
    ensures r.Some? ==> r.value in frames
    ensures r.Some? ==> r.value == frames[FrameIndex(now - start, fps, |frames|)]
  {
    match FrameShown(frames, fps, start, now)
    case None => None
    case Some(i) => Some(frames[i])
  }

  /** A one-shot state completes on a tick exactly when the index computed on
      that tick is the last one. */
  predicate Completes(frames: seq<Sprite>, fps: nat, start: nat, now: nat)
    requires start <= now
  {
    FrameShown(frames, fps, start, now) == Some(|frames| - 1)
  }

  lemma CompletesIsLastFrame(frames: seq<Sprite>, fps: nat, start: nat, now: nat)
    requires start <= now
    ensures Completes(frames, fps, start, now) <==> OnLastFrame(now - start, fps, |frames|)
  {
  }

  /** A looping state (bat flight, AI actors, fireplace, title screen) only
      writes the sprite of the tick; it has no exit of its own. */
  function Loop(c: Clip, now: nat): (r: Option<Sprite>)
    requires c.start <= now
    ensures r.None? <==> |c.frames| == 0
    ensures r.Some? ==> exists i :: 0 <= i < |c.frames| && r.value == c.frames[i]
    ensures r.Some? ==> r.value == c.frames[FrameIndex(now - c.start, c.fps, |c.frames|)]
  {
    SpriteShown(c.frames, c.fps, c.start, now)
  }
}

=== FILE: door.dfy ===
/** The ward door. It runs its own one-shot animation without a state
    machine: `doorOpening` / `doorClosing` say which way it is playing, the
    sprite array is reversed in place after each playback so the next one
    runs the other way, and a finished opening raises `spawnPatient`, which
    `LateUpdate` consumes. */
module Door {
  import opened Wrappers
  import opened FrameClock
  import opened Sequences
  import opened Animation

  /** The door's animation rate. */
  const DoorFps: nat := 6

  datatype Door = Door(frames: seq<Sprite>, start: nat, opening: bool, closing: bool, spawnPatient: bool)

  /** The door is never opening and closing at once. */
  predicate Exclusive(d: Door)
  {
    !(d.opening && d.closing)
  }

  /** Neither opening nor closing. */
  predicate Idle(d: Door)
  {
    !d.opening && !d.closing
  }

  /** `Start` clears both flags; the latch and the start time keep their
      field defaults. */
  function Init(frames: seq<Sprite>): (d: Door)
    ensures Idle(d) && !d.spawnPatient && d.frames == frames
  {
    Door(frames, 0, false, false, false)
  }

  /** `OpenDoor`: starts an opening only from an idle door. */
  function OpenDoor(d: Door, now: nat): (r: Door)
    ensures !Idle(d) ==> r == d
    ensures Idle(d) ==> r.opening && !r.closing && r.start == now
    ensures r.frames == d.frames && r.spawnPatient == d.spawnPatient
    ensures Exclusive(d) ==> Exclusive(r)
  {
    if Idle(d) then d.(start := now, opening := true) else d
  }

  /** `OnTriggerExit`: a patient leaving the doorway starts a closing, but
      only when the door is idle; any other collider is ignored. */
  function TriggerExit(d: Door, isPatient: bool, now: nat): (r: Door)
    ensures !(isPatient && Idle(d)) ==> r == d
    ensures isPatient && Idle(d) ==> r.closing && !r.opening && r.start == now
    ensures r.frames == d.frames && r.spawnPatient == d.spawnPatient
    ensures Exclusive(d) ==> Exclusive(r)
  {
    if isPatient && Idle(d) then d.(closing := true, start := now) else d
  }

  /** This tick lands on the last frame of a running playback. */
  predicate Completing(d: Door, now: nat)
    requires d.start <= now
  {
    !Idle(d) && OnLastFrame(now - d.start, DoorFps, |d.frames|)
  }

  /** What one `Update` leaves behind: the door and the sprite it wrote. */
  datatype Frame = Frame(door: Door, shown: Option<Sprite>)

  /** `Update`: while the door moves, write the sprite of the tick; on the
      tick that lands on the last frame, clear both flags, raise the spawn
      latch if it was an opening, and reverse the array for the next playback.
      There is no guard for an empty array here, so `% 0` faults. */
  function Update(d: Door, now: nat): (r: Result<Frame>)
    requires d.start <= now
    ensures Idle(d) ==> r == Ok(Frame(d, None))
    ensures r.Err? <==> !Idle(d) && |d.frames| == 0
    ensures r.Err? ==> r.fault == DivideByZero
    ensures r.Ok? && !Idle(d) ==> r.value.shown == Some(d.frames[FrameIndex(now - d.start, DoorFps, |d.frames|)])
    ensures r.Ok? && r.value.shown.Some? ==> !Idle(d) && r.value.shown.value in d.frames
    ensures r.Ok? && !Completing(d, now) ==> r.value.door == d
    ensures r.Ok? && Completing(d, now) ==>
      && Idle(r.value.door)
      && r.value.door.frames == Reverse(d.frames)
      && r.value.door.spawnPatient == (d.spawnPatient || d.opening)
      && r.value.door.start == d.start
    ensures r.Ok? && r.value.door.spawnPatient && !d.spawnPatient ==> d.opening && Completing(d, now)
    ensures r.Ok? && Exclusive(d) ==> Exclusive(r.value.door)
  {
    if Idle(d) then Ok(Frame(d, None))
    else if |d.frames| == 0 then Err(DivideByZero)
    else
      var i := FrameIndex(now - d.start, DoorFps, |d.frames|);
      var shown := Some(d.frames[i]);
      if i == |d.frames| - 1 then
        var spawn := if d.opening then true else d.spawnPatient;
        Ok(Frame(Door(Reverse(d.frames), d.start, false, false, spawn), shown))
      else
        Ok(Frame(d, shown))
  }

  /** What `LateUpdate` leaves behind: the door, and whether it called
      `SpawnPatient` (once) on the controller. */
  datatype Late = Late(door: Door, spawn: bool)

  /** `LateUpdate`: consume the latch, asking for exactly one spawn. */
  function LateUpdate(d: Door): (r: Late)
    ensures r.spawn == d.spawnPatient && !r.door.spawnPatient
    ensures r.door == d.(spawnPatient := false)
  {
    if d.spawnPatient then Late(d.(spawnPatient := false), true) else Late(d, false)
  }

  /** The engine and controller callbacks that drive the door. */
  datatype Input =
    | Open(now: nat)
    | Exit(isPatient: bool, now: nat)
    | Tick(now: nat)
    | LateTick

  /** One callback. A tick stamped before the playback started cannot occur,
      since time does not run backwards; it is ignored, and so is a tick that
      faults. */
  function Step(d: Door, input: Input): (r: Door)
    ensures Exclusive(d) ==> Exclusive(r)
  {
    match input
    case Open(now) => OpenDoor(d, now)
    case Exit(isPatient, now) => TriggerExit(d, isPatient, now)
    case Tick(now) =>
      if d.start <= now then
        match Update(d, now)
        case Ok(f) => f.door
        case Err(_) => d
      else d
    case LateTick => LateUpdate(d).door
  }

  function Run(d: Door, inputs: seq<Input>): Door
    decreases |inputs|
  {
    if |inputs| == 0 then d else Run(Step(d, inputs[0]), inputs[1..])
  }

  /** Whatever callbacks arrive, the door is never opening and closing at once. */
  lemma {:induction false} AlwaysExclusive(d: Door, inputs: seq<Input>)
    requires Exclusive(d)
    ensures Exclusive(Run(d, inputs))
    decreases |inputs|
  {
    if |inputs| > 0 {
      AlwaysExclusive(Step(d, inputs[0]), inputs[1..]);
    }
  }

  /** In particular, from `Start` on. */
  lemma NeverOpeningAndClosing(frames: seq<Sprite>, inputs: seq<Input>)
    ensures Exclusive(Run(Init(frames), inputs))
  {
    AlwaysExclusive(Init(frames), inputs);
  }

  /** A full open-then-close cycle plays the array forwards and then backwards
      and leaves it in its original order; only the opening raises the spawn
      latch. */
  lemma OpenCloseCycle(d: Door, t0: nat, t1: nat, t2: nat, t3: nat)
    requires Idle(d) && !d.spawnPatient && |d.frames| > 0
    requires t0 <= t1 <= t2 <= t3
    requires OnLastFrame(t1 - t0, DoorFps, |d.frames|)
    requires OnLastFrame(t3 - t2, DoorFps, |d.frames|)
    ensures
      var openingDoor := OpenDoor(d, t0);
      var u1 := Update(openingDoor, t1);
      && u1.Ok? && Idle(u1.value.door) && u1.value.door.spawnPatient
      && (var late := LateUpdate(u1.value.door);
          && late.spawn
          && (var u2 := Update(TriggerExit(late.door, true, t2), t3);
              && u2.Ok? && Idle(u2.value.door) && !u2.value.door.spawnPatient
              && u2.value.door.frames == d.frames))
  {
    var openingDoor := OpenDoor(d, t0);
    assert openingDoor == d.(start := t0, opening := true);
    assert Completing(openingDoor, t1);
    var u1 := Update(openingDoor, t1);
    assert u1.Ok?;
    var late := LateUpdate(u1.value.door);
    assert late.door == Door(Reverse(d.frames), t0, false, false, false);
    var closingDoor := TriggerExit(late.door, true, t2);
    assert closingDoor == Door(Reverse(d.frames), t2, false, true, false);
    assert |closingDoor.frames| == |d.frames|;
    assert Completing(closingDoor, t3);
    var u2 := Update(closingDoor, t3);
    assert u2.Ok?;
    assert u2.value.door.frames == Reverse(Reverse(d.frames));
    ReverseReverse(d.frames);
  }
}

=== FILE: frame_clock.dfy ===
/** The frame clock shared by every animation in the game: the sprite to show
    is `(int)((now - start) / (1.0 / fps)) % length`. Time is counted here in
    whole milliseconds since the start of the animation, so the float division
    becomes `elapsed * fps / 1000`, rounded down exactly like the C# `(int)`
    cast does for a non-negative value. */
module FrameClock {

  /** Model time unit: one millisecond. */
  const TicksPerSecond: nat := 1000

  /** Number of whole frames played `elapsed` milliseconds after the start at
      `fps` frames per second. With `fps == 0` the C# code divides by
      `1.0 / 0`, which is +infinity, and gets frame 0; so does this. */
  function FrameCount(elapsed: nat, fps: nat): nat
  {
    elapsed * fps / TicksPerSecond
  }

  /** Sprite index at `elapsed`: the frame count wrapped to the array. The clock
      never clamps, so a playback always loops. */
  function FrameIndex(elapsed: nat, fps: nat, length: nat): (r: nat)
    requires length > 0
    ensures r < length
  {
    FrameCount(elapsed, fps) % length
  }

  /** A one-shot animation completes on a sampled instant exactly when the
      index equals the last frame; an empty array never completes. */
  predicate OnLastFrame(elapsed: nat, fps: nat, length: nat)
  {
    length > 0 && FrameIndex(elapsed, fps, length) == length - 1
  }

  lemma MulMonotone(a: nat, b: nat, c: nat)
    requires a <= b
    ensures a * c <= b * c
  {
    assert b * c == a * c + (b - a) * c;
  }

  lemma DivMonotone(a: nat, b: nat)
    requires a <= b
    ensures a / TicksPerSecond <= b / TicksPerSecond
  {
  }

  /** Playback never runs backwards. */
  lemma FrameCountMonotone(e1: nat, e2: nat, fps: nat)
    requires e1 <= e2
    ensures FrameCount(e1, fps) <= FrameCount(e2, fps)
  {
    MulMonotone(e1, e2, fps);
    DivMonotone(e1 * fps, e2 * fps);
  }

  /** When two samples are at most one frame period apart (`gap <= 1/fps`
      seconds), the frame count advances by at most one between them. */
  lemma FrameCountStep(e: nat, gap: nat, fps: nat)
    requires gap * fps <= TicksPerSecond
    ensures FrameCount(e, fps) <= FrameCount(e + gap, fps) <= FrameCount(e, fps) + 1
  {
    FrameCountMonotone(e, e + gap, fps);
    assert (e + gap) * fps == e * fps + gap * fps;
  }

  /** When the count advances by one, the index advances by one, wrapping
      from the last frame to the first. */
  lemma {:induction false} IndexAdvancesByOne(e1: nat, e2: nat, fps: nat, length: nat)
    requires length > 0
    requires FrameCount(e2, fps) == FrameCount(e1, fps) + 1
    ensures FrameIndex(e2, fps, length) ==
      if FrameIndex(e1, fps, length) == length - 1 then 0 else FrameIndex(e1, fps, length) + 1
  {
    var c := FrameCount(e1, fps);
    var q := c / length;
    var i := c % length;
    assert c == q * length + i;
    if i == length - 1 {
      assert c + 1 == (q + 1) * length + 0;
      ModUnique(c + 1, length, q + 1, 0);
    } else {
      assert c + 1 == q * length + (i + 1);
      ModUnique(c + 1, length, q, i + 1);
    }
  }

  lemma ModUnique(n: nat, d: nat, q: nat, r: nat)
    requires d > 0 && r < d && n == q * d + r
    ensures n % d == r
  {
    var q' := n / d;
    assert n == q' * d + n % d;
    if q' < q {
      MulMonotone(q' + 1, q, d);
      assert false;
    } else if q < q' {
      MulMonotone(q + 1, q', d);
      assert false;
    }
  }

  /** Samples in time order, each at most one frame period after the previous
      one: the only regime in which no frame can be skipped. */
  predicate FineSampling(samples: seq<nat>, fps: nat)
  {
    forall i :: 0 < i < |samples| ==>
      samples[i - 1] <= samples[i] && (samples[i] - samples[i - 1]) * fps <= TicksPerSecond
  }

  /** Under fine sampling every frame count between the first and the last
      sample is observed by some sample. */
  lemma {:induction false} EveryFrameObserved(samples: seq<nat>, fps: nat, k: nat)
    requires |samples| > 0 && FineSampling(samples, fps)
    requires FrameCount(samples[0], fps) <= k <= FrameCount(samples[|samples| - 1], fps)
    ensures exists i :: 0 <= i < |samples| && FrameCount(samples[i], fps) == k
  {
    if FrameCount(samples[0], fps) == k {
      assert FrameCount(samples[0], fps) == k;
    } else {
      assert |samples| > 1;
      assert samples[0] <= samples[1] && (samples[1] - samples[0]) * fps <= TicksPerSecond;
      FrameCountStep(samples[0], samples[1] - samples[0], fps);
      var rest := samples[1..];
      assert FineSampling(rest, fps) by {
        forall i | 0 < i < |rest|
          ensures rest[i - 1] <= rest[i] && (rest[i] - rest[i - 1]) * fps <= TicksPerSecond
        {
          assert rest[i - 1] == samples[i] && rest[i] == samples[i + 1];
        }
      }
      EveryFrameObserved(rest, fps, k);
      var j :| 0 <= j < |rest| && FrameCount(rest[j], fps) == k;
      assert samples[j + 1] == rest[j];
    }
  }

  /** A one-shot animation whose samples are never more than one frame period
      apart, and which is still being sampled once its last frame is due, does
      reach its completion action. */
  lemma OneShotCompletesUnderFineSampling(samples: seq<nat>, fps: nat, length: nat)
    requires length > 0
    requires |samples| > 0 && FineSampling(samples, fps)
    requires FrameCount(samples[0], fps) <= length - 1 <= FrameCount(samples[|samples| - 1], fps)
    ensures exists i :: 0 <= i < |samples| && OnLastFrame(samples[i], fps, length)
  {
    EveryFrameObserved(samples, fps, length - 1);
    var i :| 0 <= i < |samples| && FrameCount(samples[i], fps) == length - 1;
    ModUnique(length - 1, length, 0, length - 1);
    assert OnLastFrame(samples[i], fps, length);
  }

  /** The boundary-only completion is kept as the game has it: four frames at
      6 fps show the last frame from 500 ms to 666 ms; a sample at 499 ms and
      the next at 667 ms step over it, and the playback has already wrapped to
      frame 0, so the completion action never runs. */
  lemma BoundaryMissed()
    ensures FrameCount(499, 6) == 2 && FrameCount(667, 6) == 4
    ensures !OnLastFrame(499, 6, 4) && !OnLastFrame(667, 6, 4)
    ensures FrameIndex(667, 6, 4) == 0
  {
  }

  /** Four frames at 6 fps sampled at 0.5 s show frame 3, the last one. */
  lemma HalfSecondShowsLastFrame()
    ensures FrameIndex(500, 6, 4) == 3 && OnLastFrame(500, 6, 4)
  {
  }
}

=== FILE: main_game_controller.dfy ===
/** The game controller's bookkeeping: six beds, each free or taken, the
    door it opens while a bed is free, the patient it spawns into a free bed,
    and the score. */
module MainGameController {
  import opened Wrappers
  import opened Animation
  import Door
  import Patient
  import FrameClock
  import Sequences

  const BedCount: nat := 6

  /** `bed_availible` and `score`. */
  datatype Game = Game(beds: seq<bool>, score: int)

  /** Field initialisers: six free beds and a zero score. */
  function Init(): (g: Game)
    ensures |g.beds| == BedCount && g.score == 0
    ensures forall i :: 0 <= i < |g.beds| ==> g.beds[i]
  {
    Game([true, true, true, true, true, true], 0)
  }

  predicate AnyBedFree(beds: seq<bool>)
  {
    exists i :: 0 <= i < |beds| && beds[i]
  }

  /** The `score` setter stores exactly the value assigned (the text and the
      log line it also writes are UI). */
  function SetScore(g: Game, value: int): (r: Game)
    ensures r.score == value && r.beds == g.beds
  {
    g.(score := value)
  }

  /** `OpenDoorIfBedAvailible`: scan the beds and, at the first free one,
      call `OpenDoor` and stop. Returns the door and the number of calls. */
  method OpenDoorIfBedAvailable(beds: seq<bool>, d: Door.Door, now: nat) returns (r: Door.Door, calls: nat)
    ensures calls <= 1
    ensures calls == 1 <==> AnyBedFree(beds)
    ensures r == if calls == 1 then Door.OpenDoor(d, now) else d
    ensures r == OpenIfBedFree(beds, d, now)
  {
    r, calls := d, 0;
    var i := 0;
    while i < |beds|
      invariant 0 <= i <= |beds|
      invariant calls == 0 && r == d
      invariant forall k :: 0 <= k < i ==> !beds[k]
    {
      if beds[i] {
        r := Door.OpenDoor(r, now);
        calls := calls + 1;
        return;
      }
      i := i + 1;
    }
  }

  /** `r` lists exactly the free beds of `beds`, in increasing order. */
  predicate ListsFreeBeds(beds: seq<bool>, r: seq<nat>)
  {
    && (forall k :: 0 <= k < |r| ==> r[k] < |beds| && beds[r[k]])
    && (forall i :: 0 <= i < |beds| && beds[i] ==> i in r)
    && (forall j, k :: 0 <= j < k < |r| ==> r[j] < r[k])
  }

  /** The loop step: the list for all beds but the last, then the last if it
      is free. */
  lemma ListsFreeBedsExtend(beds: seq<bool>, prefix: seq<nat>)
    requires |beds| > 0 && ListsFreeBeds(beds[..|beds| - 1], prefix)
    ensures ListsFreeBeds(beds, prefix + (if beds[|beds| - 1] then [|beds| - 1] else []))
  {
    var n := |beds| - 1;
    assert forall i :: 0 <= i < n ==> beds[..n][i] == beds[i];
  }

  /** Such a list is empty exactly when no bed is free. */
  lemma ListsFreeBedsNonEmpty(beds: seq<bool>, r: seq<nat>)
    requires ListsFreeBeds(beds, r)
    ensures |r| > 0 <==> AnyBedFree(beds)
  {
    if |r| > 0 {
      assert beds[r[0]];
    }
    if AnyBedFree(beds) {
      var i :| 0 <= i < |beds| && beds[i];
      assert i in r;
    }
  }

  /** The candidate list `SpawnPatient` builds: indices of the free beds, in
      increasing order. */
  function FreeBeds(beds: seq<bool>): (r: seq<nat>)
    ensures ListsFreeBeds(beds, r)
    ensures |r| > 0 <==> AnyBedFree(beds)
  {
    if |beds| == 0 then []
    else
      var n := |beds| - 1;
      var prefix := FreeBeds(beds[..n]);
      ListsFreeBedsExtend(beds, prefix);
      var r := prefix + (if beds[n] then [n] else []);
      ListsFreeBedsNonEmpty(beds, r);
      r
  }

  /** A spawn: the controller after it, the new patient, and its bed. */
  datatype Spawned = Spawned(game: Game, patient: Patient.Patient, bed: nat)

  /** `randomBeds[Random.Range(0, randomBeds.Count)]`, with `choice` standing
      for the random draw. */
  function Pick(candidates: seq<nat>, choice: nat): nat
    requires |candidates| > 0
  {
    candidates[choice % |candidates|]
  }

  /** `SpawnPatient`: `Random.Range` picks one entry of the candidate list;
      `choice` stands for that random draw. The chosen bed is taken, every
      other bed is left alone, and a new patient is instantiated and sent to
      it. With no free bed the candidate list is empty and indexing it throws. */
  function SpawnPatient(g: Game, choice: nat, sprites: Patient.Sprites, now: nat): (r: Result<Spawned>)
    ensures r.Err? <==> !AnyBedFree(g.beds)
    ensures r.Err? ==> r.fault == IndexOutOfRange
    ensures r.Ok? ==>
      && r.value.bed < |g.beds| && g.beds[r.value.bed]
      && |r.value.game.beds| == |g.beds| && !r.value.game.beds[r.value.bed]
      && (forall i :: 0 <= i < |g.beds| && i != r.value.bed ==> r.value.game.beds[i] == g.beds[i])
      && r.value.game.score == g.score
      && r.value.patient.bed == r.value.bed
      && r.value.patient.walking
      && Patient.Valid(r.value.patient)
  {
    var candidates := FreeBeds(g.beds);
    if |candidates| == 0 then Err(IndexOutOfRange)
    else
      var index := Pick(candidates, choice);
      var patient := Patient.SetTarget(Patient.Awake(sprites, now), index);
      Ok(Spawned(g.(beds := g.beds[index := false]), patient, index))
  }

  /** The bed a successful spawn takes is the drawn candidate. */
  lemma SpawnPicks(g: Game, choice: nat, sprites: Patient.Sprites, now: nat)
    requires |FreeBeds(g.beds)| > 0
    ensures SpawnPatient(g, choice, sprites, now).Ok?
    ensures SpawnPatient(g, choice, sprites, now).value.bed == Pick(FreeBeds(g.beds), choice)
  {
  }

  lemma ModBelow(k: nat, n: nat)
    requires k < n
    ensures k % n == k
  {
  }

  /** A draw that picks a given free bed. */
  lemma DrawFor(beds: seq<bool>, bed: nat) returns (choice: nat)
    requires bed < |beds| && beds[bed]
    ensures |FreeBeds(beds)| > 0 && Pick(FreeBeds(beds), choice) == bed
  {
    var candidates := FreeBeds(beds);
    assert bed in candidates;
    var k :| 0 <= k < |candidates| && candidates[k] == bed;
    ModBelow(k, |candidates|);
    choice := k;
  }

  /** The random draw can land on any free bed. */
  lemma EveryFreeBedCanBeChosen(g: Game, bed: nat, sprites: Patient.Sprites, now: nat)
    requires bed < |g.beds| && g.beds[bed]
    ensures exists choice :: SpawnPatient(g, choice, sprites, now).Ok? && SpawnPatient(g, choice, sprites, now).value.bed == bed
  {
    var k := DrawFor(g.beds, bed);
    SpawnPicks(g, k, sprites, now);
  }

  /** A spawned patient removed later gives back exactly the bed it took. */
  lemma SpawnThenRemoveRestoresBeds(g: Game, choice: nat, sprites: Patient.Sprites, now: nat)
    requires AnyBedFree(g.beds)
    ensures
      var s := SpawnPatient(g, choice, sprites, now);
      && s.Ok?
      && 0 <= s.value.patient.bed < |s.value.game.beds|
      && Patient.RemoveFromBed(s.value.patient, s.value.game.beds) == g.beds
  {
    var s := SpawnPatient(g, choice, sprites, now).value;
    var restored := Patient.RemoveFromBed(s.patient, s.game.beds);
    assert forall i :: 0 <= i < |g.beds| ==> restored[i] == g.beds[i];
  }

  /** The ward: controller, door and live patients. */
  datatype Ward = Ward(game: Game, door: Door.Door, patients: seq<Patient.Patient>, sprites: Patient.Sprites)

  /** The callbacks that touch the ward. The engine runs every `Update`, then
      the due `Invoke` callbacks, then every `LateUpdate`, so the door's two
      halves of a frame are separate events and the timer can fire between
      them. */
  datatype Event =
    | SpawnTimer(now: nat)                    // InvokeRepeating("OpenDoorIfBedAvailible")
    | DoorUpdate(now: nat)                    // Door.Update
    | DoorLateUpdate(now: nat, choice: nat)   // Door.LateUpdate, and the draw of the spawn it may call
    | PatientLeavesDoorway(now: nat)          // Door.OnTriggerExit with a patient
    | RemovePatient(k: nat)                   // patient k's delayed RemoveFromBed

  /** What the timer callback `OpenDoorIfBedAvailible` does to the door. */
  function OpenIfBedFree(beds: seq<bool>, d: Door.Door, now: nat): Door.Door
  {
    if AnyBedFree(beds) then Door.OpenDoor(d, now) else d
  }

  /** The calls that throw: a moving door with no sprites (`% 0`), a spawn
      that finds no free bed (indexing the empty candidate list), and a
      removal whose bed index lies outside the array. */
  predicate Faults(w: Ward, e: Event)
  {
    match e
    case DoorUpdate(now) => w.door.start <= now && !Door.Idle(w.door) && |w.door.frames| == 0
    case DoorLateUpdate(_, _) => w.door.spawnPatient && !AnyBedFree(w.game.beds)
    case RemovePatient(k) => k < |w.patients| && !(0 <= w.patients[k].bed < |w.game.beds|)
    case _ => false
  }

  /** One callback, as the game is written. A door frame stamped before the
      playback started cannot occur and is ignored, and so is a removal of a
      patient that is not there. */
  function StepAsWritten(w: Ward, e: Event): (r: Result<Ward>)
    ensures r.Err? <==> Faults(w, e)
    ensures r.Ok? ==> |r.value.game.beds| == |w.game.beds| && r.value.sprites == w.sprites
    ensures r.Ok? && r.value.game != w.game ==> e.DoorLateUpdate? || e.RemovePatient?
    ensures r.Ok? && e.DoorLateUpdate? ==> !r.value.door.spawnPatient
  {
    match e
    case SpawnTimer(now) => Ok(w.(door := OpenIfBedFree(w.game.beds, w.door, now)))
    case PatientLeavesDoorway(now) => Ok(w.(door := Door.TriggerExit(w.door, true, now)))
    case RemovePatient(k) =>
      if k >= |w.patients| then Ok(w)
      else if !(0 <= w.patients[k].bed < |w.game.beds|) then Err(IndexOutOfRange)
      else
        var beds := Patient.RemoveFromBed(w.patients[k], w.game.beds);
        Ok(w.(game := w.game.(beds := beds), patients := w.patients[..k] + w.patients[k + 1..]))
    case DoorUpdate(now) =>
      if w.door.start > now then Ok(w)
      else
        (match Door.Update(w.door, now)
         case Err(f) => Err(f)
         case Ok(frame) => Ok(w.(door := frame.door)))
    case DoorLateUpdate(now, choice) =>
      var late := Door.LateUpdate(w.door);
      if !late.spawn then Ok(w.(door := late.door))
      else
        (match SpawnPatient(w.game, choice, w.sprites, now)
         case Err(f) => Err(f)
         case Ok(s) => Ok(Ward(s.game, late.door, w.patients + [s.patient], w.sprites)))
  }

  /** The timer callback as evidently intended: a free bed is not free for a
      new opening while the spawn the door has already asked for is still to
      claim one, so the door does not reopen while a spawn is pending. */
  function OpenIfBedUnclaimed(beds: seq<bool>, d: Door.Door, now: nat): (r: Door.Door)
    ensures d.spawnPatient ==> r == d
    ensures !d.spawnPatient ==> r == OpenIfBedFree(beds, d, now)
    ensures r != d ==> Door.Idle(d) && !d.spawnPatient && AnyBedFree(beds) && r == Door.OpenDoor(d, now)
  {
    if d.spawnPatient then d else OpenIfBedFree(beds, d, now)
  }

  /** One callback with the corrected timer; every other callback is the
      game's own. */
  function Step(w: Ward, e: Event): (r: Result<Ward>)
    ensures !e.SpawnTimer? ==> r == StepAsWritten(w, e)
    ensures e.SpawnTimer? ==> r == Ok(w.(door := OpenIfBedUnclaimed(w.game.beds, w.door, e.now)))
  {
    match e
    case SpawnTimer(now) => Ok(w.(door := OpenIfBedUnclaimed(w.game.beds, w.door, now)))
    case _ => StepAsWritten(w, e)
  }

  /** Callbacks in order, stopping at the first that throws. */
  function RunSteps(step: (Ward, Event) -> Result<Ward>, w: Ward, events: seq<Event>): Result<Ward>
    decreases |events|
  {
    if |events| == 0 then Ok(w)
    else
      match step(w, events[0])
      case Err(f) => Err(f)
      case Ok(next) => RunSteps(step, next, events[1..])
  }

  /** The ward is in a state where no callback throws: six beds, a door with
      sprites that is never opening and closing at once, a free bed whenever
      the door is opening or a spawn is pending, no pending spawn while the
      door is opening, and every patient assigned a real bed. */
  predicate WardOk(w: Ward)
  {
    && |w.game.beds| == BedCount
    && |w.door.frames| > 0
    && Door.Exclusive(w.door)
    && (w.door.opening ==> AnyBedFree(w.game.beds) && !w.door.spawnPatient)
    && (w.door.spawnPatient ==> AnyBedFree(w.game.beds))
    && (forall k :: 0 <= k < |w.patients| ==> 0 <= w.patients[k].bed < BedCount)
  }

  /** With the corrected timer, every callback from a valid ward succeeds and
      leaves it valid: in particular a spawn never meets a full ward. */
  lemma StepKeepsWardOk(w: Ward, e: Event)
    requires WardOk(w)
    ensures Step(w, e).Ok? && WardOk(Step(w, e).value)
  {
    match e
    case SpawnTimer(now) =>
    case PatientLeavesDoorway(now) =>
    case RemovePatient(k) =>
      if k < |w.patients| {
        var beds := Patient.RemoveFromBed(w.patients[k], w.game.beds);
        assert AnyBedFree(w.game.beds) ==> AnyBedFree(beds) by {
          if AnyBedFree(w.game.beds) {
            var i :| 0 <= i < |w.game.beds| && w.game.beds[i];
            assert beds[i];
          }
        }
      }
    case DoorUpdate(now) =>
    case DoorLateUpdate(now, choice) =>
      if w.door.spawnPatient {
        var s := SpawnPatient(w.game, choice, w.sprites, now);
        var r := Step(w, e).value;
        assert r.patients == w.patients + [s.value.patient];
      }
  }

  /** Any run of callbacks from a valid ward, with the corrected timer, never
      throws and keeps the ward valid. */
  method Run(w: Ward, events: seq<Event>) returns (r: Ward)
    requires WardOk(w)
    ensures WardOk(r)
    ensures RunSteps(Step, w, events) == Ok(r)
  {
    r := w;
    var i := 0;
    while i < |events|
      invariant 0 <= i <= |events|
      invariant WardOk(r)
      invariant RunSteps(Step, w, events) == RunSteps(Step, r, events[i..])
    {
      StepKeepsWardOk(r, events[i]);
      assert events[i..][1..] == events[i + 1..];
      r := Step(r, events[i]).value;
      i := i + 1;
    }
  }

  /** A new game starts in a valid ward. */
  lemma NewWardOk(frames: seq<Sprite>, sprites: Patient.Sprites)
    requires |frames| > 0
    ensures WardOk(Ward(Init(), Door.Init(frames), [], sprites))
  {
  }

  /** The scenario of the double spawn: five beds are taken and the door is
      opening towards the last free one. */
  function Crowded(sprites: Patient.Sprites): Ward
  {
    Ward(Game([false, false, false, false, false, true], 0), Door.Door([1, 2, 3, 4], 0, true, false, false), [], sprites)
  }

  /** At 500 ms the opening completes and asks for a spawn; the timer fires
      before `LateUpdate`; the spawn runs; at 1000 ms the door completes again
      and `LateUpdate` runs. */
  const Crowding: seq<Event> :=
    [DoorUpdate(500), SpawnTimer(500), DoorLateUpdate(500, 0), DoorUpdate(1000), DoorLateUpdate(1000, 0)]

  /** The first opening completes at 500 ms (frame 3 of 4 at 6 fps). */
  lemma CrowdedOpeningCompletes(sprites: Patient.Sprites)
    ensures StepAsWritten(Crowded(sprites), Crowding[0])
         == Ok(Crowded(sprites).(door := Door.Door([4, 3, 2, 1], 0, false, false, true)))
  {
    var d := Crowded(sprites).door;
    assert FrameClock.FrameIndex(500, Door.DoorFps, 4) == 3;
    assert Sequences.Reverse(d.frames) == [4, 3, 2, 1];
  }

  /** The one bed still free is the only candidate. */
  lemma LastBedOnly(beds: seq<bool>)
    requires beds == [false, false, false, false, false, true]
    ensures FreeBeds(beds) == [5]
  {
    assert beds[..5] == [false, false, false, false, false];
    assert FreeBeds(beds[..5]) == [];
  }

  /** As written, the timer sees bed 5 free and reopens the idle door,
      although a spawn is pending. */
  lemma TimerReopens(w: Ward, now: nat)
    requires w.game.beds == [false, false, false, false, false, true]
    requires w.door == Door.Door([4, 3, 2, 1], 0, false, false, true)
    ensures StepAsWritten(w, SpawnTimer(now)) == Ok(w.(door := Door.Door([4, 3, 2, 1], now, true, false, true)))
  {
    assert w.game.beds[5];
  }

  /** The pending spawn takes bed 5, the last free one, and leaves the door
      opening. */
  lemma SpawnTakesLastBed(w: Ward, now: nat, choice: nat)
    requires w.game.beds == [false, false, false, false, false, true]
    requires w.door == Door.Door([4, 3, 2, 1], 500, true, false, true)
    ensures StepAsWritten(w, DoorLateUpdate(now, choice)).Ok?
    ensures var r := StepAsWritten(w, DoorLateUpdate(now, choice)).value;
      && r.game.beds == [false, false, false, false, false, false]
      && r.door == Door.Door([4, 3, 2, 1], 500, true, false, false)
  {
    LastBedOnly(w.game.beds);
    assert w.game.beds[5];
    var s := SpawnPatient(w.game, choice, w.sprites, now).value;
    assert s.bed == 5;
  }

  /** The reopened door completes at 1000 ms and asks for another spawn. */
  lemma SecondOpeningCompletes(w: Ward)
    requires w.door == Door.Door([4, 3, 2, 1], 500, true, false, false)
    ensures StepAsWritten(w, DoorUpdate(1000)) == Ok(w.(door := Door.Door([1, 2, 3, 4], 500, false, false, true)))
  {
    assert FrameClock.FrameIndex(500, Door.DoorFps, 4) == 3;
    assert Sequences.Reverse(w.door.frames) == [1, 2, 3, 4];
  }

  /** ... and that spawn finds every bed taken. */
  lemma SecondSpawnFaults(w: Ward, now: nat, choice: nat)
    requires w.game.beds == [false, false, false, false, false, false]
    requires w.door.spawnPatient
    ensures StepAsWritten(w, DoorLateUpdate(now, choice)) == Err(IndexOutOfRange)
  {
  }

  /** With the corrected timer the door stays shut while the spawn is
      pending, the spawn takes bed 5, and nothing else happens. */
  lemma CorrectedHoldsBack(w: Ward)
    requires w.game.beds == [false, false, false, false, false, true]
    requires w.door == Door.Door([4, 3, 2, 1], 0, false, false, true)
    ensures Step(w, SpawnTimer(500)) == Ok(w)
    ensures Step(w, DoorLateUpdate(500, 0)).Ok?
    ensures var r := Step(w, DoorLateUpdate(500, 0)).value;
      && r.door == Door.Door([4, 3, 2, 1], 0, false, false, false)
      && Step(r, DoorUpdate(1000)) == Ok(r)
      && Step(r, DoorLateUpdate(1000, 0)) == Ok(r)
  {
    assert w.game.beds[5];
  }

  /** One successful callback and then the rest. */
  lemma RunStepsCons(step: (Ward, Event) -> Result<Ward>, w: Ward, events: seq<Event>, next: Ward)
    requires |events| > 0 && step(w, events[0]) == Ok(next)
    ensures RunSteps(step, w, events) == RunSteps(step, next, events[1..])
  {
  }

  /** As written, the run from `Crowded` faults on the second spawn. */
  lemma CrowdedFaultsAsWritten(sprites: Patient.Sprites)
    ensures RunSteps(StepAsWritten, Crowded(sprites), Crowding) == Err(IndexOutOfRange)
  {
    var w := Crowded(sprites);
    var e := Crowding;
    assert e[1..][1..] == e[2..] && e[2..][1..] == e[3..] && e[3..][1..] == e[4..];
    CrowdedOpeningCompletes(sprites);
    var w1 := w.(door := Door.Door([4, 3, 2, 1], 0, false, false, true));
    TimerReopens(w1, 500);
    var w2 := w1.(door := Door.Door([4, 3, 2, 1], 500, true, false, true));
    SpawnTakesLastBed(w2, 500, 0);
    var w3 := StepAsWritten(w2, e[2]).value;
    SecondOpeningCompletes(w3);
    var w4 := w3.(door := Door.Door([1, 2, 3, 4], 500, false, false, true));
    SecondSpawnFaults(w4, 1000, 0);
    RunStepsCons(StepAsWritten, w3, e[3..], w4);
    RunStepsCons(StepAsWritten, w2, e[2..], w3);
    RunStepsCons(StepAsWritten, w1, e[1..], w2);
    RunStepsCons(StepAsWritten, w, e, w1);
  }

  /** With the corrected timer the same run does not fault. */
  lemma CrowdedRunsCorrected(sprites: Patient.Sprites)
    ensures RunSteps(Step, Crowded(sprites), Crowding).Ok?
  {
    var w := Crowded(sprites);
    var e := Crowding;
    assert e[1..][1..] == e[2..] && e[2..][1..] == e[3..] && e[3..][1..] == e[4..] && e[4..][1..] == [];
    CrowdedOpeningCompletes(sprites);
    var w1 := w.(door := Door.Door([4, 3, 2, 1], 0, false, false, true));
    CorrectedHoldsBack(w1);
    var c3 := Step(w1, e[2]).value;
    RunStepsCons(Step, c3, e[4..], c3);
    RunStepsCons(Step, c3, e[3..], c3);
    RunStepsCons(Step, w1, e[2..], c3);
    RunStepsCons(Step, w1, e[1..], w1);
    RunStepsCons(Step, w, e, w1);
  }

  /** The double spawn, as written: the run from `Crowded`, a valid ward,
      faults on the second spawn, while the corrected timer runs the same
      callbacks from it without a fault. */
  lemma DoubleSpawnFault(sprites: Patient.Sprites)
    ensures WardOk(Crowded(sprites))
    ensures RunSteps(StepAsWritten, Crowded(sprites), Crowding) == Err(IndexOutOfRange)
    ensures RunSteps(Step, Crowded(sprites), Crowding).Ok?
  {
    assert Crowded(sprites).game.beds[5];
    CrowdedFaultsAsWritten(sprites);
    CrowdedRunsCorrected(sprites);
  }
}

=== FILE: patient.dfy ===
/** A patient: walks to the bed the controller assigned, settles into it
    once, can be bitten, and frees its bed when it is removed. */
module Patient {
  import opened Wrappers
  import opened Animation
  import SM = StateMachine

  /** The patient's single machine. */
  const AnimationMachine: SM.MachineId := 0

  const WalkFps: nat := 6
  const IdleFps: nat := 1
  const BittenFps: nat := 1

  /** The sprite arrays set on the prefab. */
  datatype Sprites = Sprites(idle: seq<Sprite>, movement: seq<Sprite>, bitten: seq<Sprite>)

  /** `bed` is `bed_index`; `colliderEnabled` is the box collider;
      `removalScheduled` stands for the pending `Invoke("RemoveFromBed")`. */
  datatype Patient = Patient(
    sprites: Sprites,
    anim: Machine,
    bed: int,
    walking: bool,
    colliderEnabled: bool,
    removalScheduled: bool)

  predicate Valid(p: Patient)
  {
    SM.Valid(p.anim) && p.anim.id == AnimationMachine
  }

  /** `Awake`: a new machine playing the walk cycle. `walking` starts true and
      `bed_index` has its field default 0 until `SetTarget`. */
  function Awake(sprites: Sprites, now: nat): (p: Patient)
    ensures Valid(p) && p.walking && p.bed == 0 && p.colliderEnabled && !p.removalScheduled
    ensures p.sprites == sprites
    ensures SM.Current(p.anim) == Some(AIPlayAnimation(Clip(sprites.movement, WalkFps, now)))
  {
    var m := SM.ChangeState(SM.New(AnimationMachine), AIPlayAnimation(Clip(sprites.movement, WalkFps, now)));
    Patient(sprites, m, 0, true, true, false)
  }

  /** `FixedUpdate`: the first time the path finder reports the bed reached,
      stop walking and switch to the idle animation. Nothing ever sets
      `walking` back to true. */
  function FixedUpdate(p: Patient, targetReached: bool, now: nat): (r: Patient)
    ensures r.walking ==> p.walking
    ensures !(targetReached && p.walking) ==> r == p
    ensures targetReached && p.walking ==>
      && !r.walking
      && SM.Current(r.anim) == Some(AIPlayAnimation(Clip(p.sprites.idle, IdleFps, now)))
      && r == p.(walking := false, anim := r.anim)
    ensures Valid(p) ==> Valid(r)
  {
    if targetReached && p.walking then
      p.(walking := false, anim := SM.ChangeState(p.anim, AIPlayAnimation(Clip(p.sprites.idle, IdleFps, now))))
    else p
  }

  /** `Update`: tick the machine and write the sprite of the tick. */
  function Update(p: Patient, now: nat): (r: (Patient, Option<Sprite>))
    requires MachineStartedBy(p.anim, now)
    ensures r.0 == p.(anim := SM.Update(p.anim))
    ensures SM.IsFinished(p.anim) ==> r.1.None?
    ensures r.1.Some? ==> exists c :: SM.Current(p.anim) == Some(AIPlayAnimation(c)) && r.1.value in c.frames
    ensures forall c :: SM.Current(p.anim) == Some(AIPlayAnimation(c)) ==> r.1 == Loop(c, now)
  {
    var m := SM.Update(p.anim);
    var shown :=
      match p.anim.current
      case None => None
      case Some(a) =>
        match a.state
        case AIPlayAnimation(c) => Loop(c, now)
        case _ => None;
    (p.(anim := m), shown)
  }

  /** `Bitten`: the collider is switched off, the bitten sprite plays, and
      the removal is scheduled. */
  function Bitten(p: Patient, now: nat): (r: Patient)
    ensures !r.colliderEnabled && r.removalScheduled
    ensures SM.Current(r.anim) == Some(AIPlayAnimation(Clip(p.sprites.bitten, BittenFps, now)))
    ensures r.walking == p.walking && r.bed == p.bed && r.sprites == p.sprites
    ensures Valid(p) ==> Valid(r)
  {
    p.(colliderEnabled := false,
       anim := SM.ChangeState(p.anim, AIPlayAnimation(Clip(p.sprites.bitten, BittenFps, now))),
       removalScheduled := true)
  }

  /** `SetTarget`: remember the assigned bed; nothing else of the model
      changes (the path-finder target is engine state). */
  function SetTarget(p: Patient, bedIndex: int): (r: Patient)
    ensures r.bed == bedIndex
    ensures r.(bed := p.bed) == p
  {
    p.(bed := bedIndex)
  }

  /** `RemoveFromBed`: the patient's own bed becomes available again and no
      other slot changes. Indexing outside the array would throw. */
  function RemoveFromBed(p: Patient, beds: seq<bool>): (r: seq<bool>)
    requires 0 <= p.bed < |beds|
    ensures |r| == |beds| && r[p.bed]
    ensures forall i :: 0 <= i < |beds| && i != p.bed ==> r[i] == beds[i]
  {
    beds[p.bed := true]
  }

  /** The physics callbacks a patient sees. */
  datatype Input = Fixed(targetReached: bool, now: nat) | Bite(now: nat)

  function Step(p: Patient, input: Input): Patient
  {
    match input
    case Fixed(reached, now) => FixedUpdate(p, reached, now)
    case Bite(now) => Bitten(p, now)
  }

  /** How many times the settle transition fires along a run. */
  function Settles(p: Patient, inputs: seq<Input>): nat
    decreases |inputs|
  {
    if |inputs| == 0 then 0
    else
      var fires := if inputs[0].Fixed? && inputs[0].targetReached && p.walking then 1 else 0;
      fires + Settles(Step(p, inputs[0]), inputs[1..])
  }

  /** A patient settles into its bed at most once, and never after it has
      stopped walking. */
  lemma {:induction false} SettlesAtMostOnce(p: Patient, inputs: seq<Input>)
    ensures Settles(p, inputs) <= (if p.walking then 1 else 0)
    decreases |inputs|
  {
    if |inputs| > 0 {
      SettlesAtMostOnce(Step(p, inputs[0]), inputs[1..]);
    }
  }
}

=== FILE: sequences.dfy ===
/** In-place array reversal (`System.Array.Reverse`) as a function on sequences. */
module Sequences {

  /** The sequence read back to front. */
  function Reverse<T>(s: seq<T>): (r: seq<T>)
    ensures |r| == |s|
    ensures forall i :: 0 <= i < |s| ==> r[i] == s[|s| - 1 - i]
  {
    if |s| == 0 then [] else Reverse(s[1..]) + [s[0]]
  }

  /** Reversing twice restores the original order, which is what lets one
      backing array serve both playback directions. */
  lemma ReverseReverse<T>(s: seq<T>)
    ensures Reverse(Reverse(s)) == s
  {
    var r := Reverse(Reverse(s));
    assert |r| == |s|;
    forall i | 0 <= i < |s|
      ensures r[i] == s[i]
    {
      assert r[i] == Reverse(s)[|s| - 1 - i];
    }
  }

  /** Reversal only reorders: the same elements, with the same multiplicities. */
  lemma {:induction false} ReversePermutes<T>(s: seq<T>)
    ensures multiset(Reverse(s)) == multiset(s)
  {
    if |s| > 0 {
      ReversePermutes(s[1..]);
      assert s == [s[0]] + s[1..];
    }
  }
}

=== FILE: state_machine.dfy ===
/** The reusable state machine: at most one current state, lifecycle hooks
    called in a fixed order, and a back-reference from the installed state to
    its machine so a state can end itself.

    The hooks a state runs are recorded as an event trace. `Replay` is an
    independent reading of a trace as lifecycle rules (start only when idle,
    finish and tick only the state that is running); every machine operation
    keeps its trace replayable to exactly its current state. */
module StateMachine {
  import opened Wrappers

  /** Handle of a machine, standing for the C# object reference. */
  type MachineId = nat

  /** One hook call on a state. */
  datatype Event<S> = Start(state: S) | Finish(state: S) | Tick(state: S)

  /** An installed state together with its `state_machine` back-reference. */
  datatype Active<S> = Active(state: S, machine: MachineId)

  datatype Machine<S> = Machine(id: MachineId, current: Option<Active<S>>, trace: seq<Event<S>>)

  /** A freshly constructed machine: no state, no hooks run. */
  function New<S>(id: MachineId): Machine<S>
  {
    Machine(id, None, [])
  }

  /** The running state, if any. */
  function Current<S>(m: Machine<S>): Option<S>
  {
    match m.current
    case None => None
    case Some(a) => Some(a.state)
  }

  /** The machine holds no state. */
  predicate IsFinished<S>(m: Machine<S>)
  {
    m.current.None?
  }

  /** Effect of one hook call on the running state, or `None` when the call
      breaks the lifecycle rules. */
  function ApplyEvent<S(==)>(running: Option<S>, e: Event<S>): Option<Option<S>>
  {
    match e
    case Start(s) => if running.None? then Some(Some(s)) else None
    case Finish(s) => if running == Some(s) then Some(None) else None
    case Tick(s) => if running == Some(s) then Some(running) else None
  }

  /** The state left running by a trace that starts from an empty machine, or
      `None` when some hook in it is out of order. */
  function Replay<S(==)>(t: seq<Event<S>>): Option<Option<S>>
  {
    if |t| == 0 then Some(None)
    else
      match Replay(t[..|t| - 1])
      case None => None
      case Some(running) => ApplyEvent(running, t[|t| - 1])
  }

  lemma ReplaySnoc<S>(t: seq<Event<S>>, e: Event<S>)
    ensures Replay(t + [e]) ==
      match Replay(t)
      case None => None
      case Some(running) => ApplyEvent(running, e)
  {
    assert (t + [e])[..|t|] == t;
  }

  /** The machine's history explains its present: the hooks ran in lifecycle
      order and leave exactly the current state running, and an installed
      state points back at this machine. */
  predicate Valid<S(==)>(m: Machine<S>)
  {
    && Replay(m.trace) == Some(Current(m))
    && (m.current.Some? ==> m.current.value.machine == m.id)
  }

  /** Finish the running state, if any, then install `s`, point it back at
      this machine and start it. */
  function ChangeState<S(==)>(m: Machine<S>, s: S): (r: Machine<S>)
    ensures r.id == m.id && !IsFinished(r)
    ensures Current(r) == Some(s) && r.current.value.machine == m.id
    ensures |r.trace| == |m.trace| + (if IsFinished(m) then 1 else 2)
    ensures r.trace[..|m.trace|] == m.trace
    ensures !IsFinished(m) ==> r.trace[|m.trace|] == Finish(m.current.value.state)
    ensures r.trace[|r.trace| - 1] == Start(s)
    ensures Valid(m) ==> Valid(r)
  {
    var finished := if m.current.Some? then m.trace + [Finish(m.current.value.state)] else m.trace;
    var r := Machine(m.id, Some(Active(s, m.id)), finished + [Start(s)]);
    assert Valid(m) ==> Valid(r) by {
      if Valid(m) {
        if m.current.Some? {
          ReplaySnoc(m.trace, Finish(m.current.value.state));
        }
        assert Replay(finished) == Some(None);
        ReplaySnoc(finished, Start(s));
      }
    }
    r
  }

  /** Finish the running state, if any, and empty the machine. */
  function Reset<S(==)>(m: Machine<S>): (r: Machine<S>)
    ensures r.id == m.id && IsFinished(r)
    ensures IsFinished(m) ==> r == m
    ensures !IsFinished(m) ==> r.trace == m.trace + [Finish(m.current.value.state)]
    ensures Valid(m) ==> Valid(r)
  {
    if m.current.None? then m
    else
      var r := Machine(m.id, None, m.trace + [Finish(m.current.value.state)]);
      assert Valid(m) ==> Valid(r) by {
        if Valid(m) {
          ReplaySnoc(m.trace, Finish(m.current.value.state));
        }
      }
      r
  }

  /** One engine tick: the running state's `OnUpdate` is called once; an
      empty machine does nothing. What the state does in response is decided
      by its owner, which then calls `ChangeState` or `Reset` as the C# state
      does from inside `OnUpdate`. */
  function Update<S(==)>(m: Machine<S>): (r: Machine<S>)
    ensures IsFinished(m) ==> r == m
    ensures !IsFinished(m) ==> r.current == m.current && r.id == m.id
    ensures !IsFinished(m) ==> r.trace == m.trace + [Tick(m.current.value.state)]
    ensures Valid(m) ==> Valid(r)
  {
    if m.current.None? then m
    else
      var r := m.(trace := m.trace + [Tick(m.current.value.state)]);
      assert Valid(m) ==> Valid(r) by {
        if Valid(m) {
          ReplaySnoc(m.trace, Tick(m.current.value.state));
        }
      }
      r
  }

  /** `State.ConcludeState`: the state resets the machine its back-reference
      names; every other machine is left alone. */
  function ConcludeState<S(==)>(machines: map<MachineId, Machine<S>>, self: Active<S>): (r: map<MachineId, Machine<S>>)
    requires self.machine in machines
    ensures r.Keys == machines.Keys
    ensures IsFinished(r[self.machine])
    ensures r[self.machine] == Reset(machines[self.machine])
    ensures forall id :: id in machines && id != self.machine ==> r[id] == machines[id]
  {
    machines[self.machine := Reset(machines[self.machine])]
  }

  /** Resetting twice is resetting once, and runs no hook the second time. */
  lemma ResetIdempotent<S>(m: Machine<S>)
    ensures Reset(Reset(m)) == Reset(m)
    ensures IsFinished(Reset(m))
  {
  }

  /** A state that concludes itself leaves its own machine finished, with the
      state's `OnFinish` as the last hook run. */
  lemma ConcludeAfterChange<S>(machines: map<MachineId, Machine<S>>, id: MachineId, s: S)
    requires id in machines && machines[id].id == id
    ensures
      var m := ChangeState(machines[id], s);
      var after := ConcludeState(machines[id := m], m.current.value);
      && IsFinished(after[id])
      && after[id].trace == m.trace + [Finish(s)]
  {
  }

  /** The calls a behaviour controller can make on a machine. */
  datatype Call<S> = ChangeTo(s: S) | ResetCall | UpdateCall

  function Perform<S(==)>(m: Machine<S>, c: Call<S>): Machine<S>
  {
    match c
    case ChangeTo(s) => ChangeState(m, s)
    case ResetCall => Reset(m)
    case UpdateCall => Update(m)
  }

  function Run<S(==)>(m: Machine<S>, calls: seq<Call<S>>): Machine<S>
    decreases |calls|
  {
    if |calls| == 0 then m else Run(Perform(m, calls[0]), calls[1..])
  }

  /** Any sequence of calls on a new machine leaves it valid: its hooks ran in
      lifecycle order. */
  lemma {:induction false} RunValid<S>(m: Machine<S>, calls: seq<Call<S>>)
    requires Valid(m)
    ensures Valid(Run(m, calls))
    ensures Run(m, calls).id == m.id
    decreases |calls|
  {
    if |calls| > 0 {
      RunValid(Perform(m, calls[0]), calls[1..]);
    }
  }

  /** Number of `Start` and `Finish` events in a trace. */
  function Starts<S>(t: seq<Event<S>>): nat
  {
    if |t| == 0 then 0 else Starts(t[..|t| - 1]) + (if t[|t| - 1].Start? then 1 else 0)
  }

  function Finishes<S>(t: seq<Event<S>>): nat
  {
    if |t| == 0 then 0 else Finishes(t[..|t| - 1]) + (if t[|t| - 1].Finish? then 1 else 0)
  }

  /** In a well-ordered trace every start but the running one has been
      matched by exactly one finish: no state is started or finished twice. */
  lemma {:induction false} StartsMatchFinishes<S>(t: seq<Event<S>>)
    requires Replay(t).Some?
    ensures Starts(t) == Finishes(t) + (if Replay(t).value.Some? then 1 else 0)
  {
    if |t| > 0 {
      StartsMatchFinishes(t[..|t| - 1]);
    }
  }

  /** A prefix of a well-ordered trace is well-ordered. */
  lemma {:induction false} ReplayPrefix<S>(t: seq<Event<S>>, n: nat)
    requires n <= |t| && Replay(t).Some?
    ensures Replay(t[..n]).Some?
    decreases |t|
  {
    if n < |t| {
      assert t[..|t| - 1][..n] == t[..n];
      ReplayPrefix(t[..|t| - 1], n);
    } else {
      assert t[..n] == t;
    }
  }

  /** After a `Start` with no `Finish` following it, a state is still running. */
  lemma {:induction false} RunningUntilFinished<S>(t: seq<Event<S>>, i: nat, n: nat)
    requires i < n <= |t| && Replay(t[..n]).Some?
    requires t[i].Start?
    requires forall k :: i < k < n ==> !t[k].Finish?
    ensures Replay(t[..n]).value.Some?
    decreases n
  {
    assert t[..n][..n - 1] == t[..n - 1];
    ReplayPrefix(t[..n], n - 1);
    if n - 1 == i {
      assert Replay(t[..n - 1]).value.None?;
    } else {
      RunningUntilFinished(t, i, n - 1);
    }
  }

  /** Between two starts of a well-ordered trace there is a finish: the old
      state's `OnFinish` runs strictly before the next `OnStart`. */
  lemma FinishBetweenStarts<S>(t: seq<Event<S>>, i: nat, j: nat)
    requires Replay(t).Some?
    requires i < j < |t| && t[i].Start? && t[j].Start?
    ensures exists k :: i < k < j && t[k].Finish?
  {
    if forall k :: i < k < j ==> !t[k].Finish? {
      ReplayPrefix(t, j);
      RunningUntilFinished(t, i, j);
      assert false;
    }
  }

  /** Whatever calls a behaviour controller makes on a new machine, the hooks
      it ran are in lifecycle order: one start per finish (plus the running
      state), and a finish between any two starts. */
  lemma LifecycleOrder<S>(id: MachineId, calls: seq<Call<S>>)
    ensures var t := Run(New<S>(id), calls).trace;
      && Replay(t) == Some(Current(Run(New<S>(id), calls)))
      && Starts(t) == Finishes(t) + (if IsFinished(Run(New<S>(id), calls)) then 0 else 1)
      && forall i, j :: 0 <= i < j < |t| && t[i].Start? && t[j].Start? ==>
           exists k :: i < k < j && t[k].Finish?
  {
    var m := Run(New<S>(id), calls);
    RunValid(New<S>(id), calls);
    StartsMatchFinishes(m.trace);
    forall i, j | 0 <= i < j < |m.trace| && m.trace[i].Start? && m.trace[j].Start?
      ensures exists k :: i < k < j && m.trace[k].Finish?
    {
      FinishBetweenStarts(m.trace, i, j);
    }
  }
}

=== FILE: vampire.dfy ===
/** The player's vampire: two state machines (animation and movement), the
    clamped bat-point and health properties, the once-only death, the
    once-a-second bat-point drain, the bite, and the `OnUpdate` of every state
    the two machines run, dispatched from one `match`. */
module Vampire {
  import opened Wrappers
  import opened FrameClock
  import opened Sequences
  import opened Animation
  import SM = StateMachine
  import MainGameController
  import Patient

  const AnimationMachine: SM.MachineId := 0
  const MovementMachine: SM.MachineId := 1

  const MaxHealth: int := 100
  const WalkFps: nat := 6
  const MorphFps: nat := 10
  const BatFps: nat := 10
  const AttackFps: nat := 10
  const DeathFps: nat := 5

  /** The values set in the inspector. */
  datatype Config = Config(
    move: seq<Sprite>,
    bat: seq<Sprite>,
    attack: seq<Sprite>,
    death: seq<Sprite>,
    continuousDamage: int,
    damageTaken: int,
    healthRestored: int,
    batRegen: int,
    batDeplete: int,
    totalBatPoints: int)

  /** `toBatFrames` is the `toBat` sprite array, which metamorphosis states
      share with the vampire and reverse in place; `destroyed` records that
      the death animation destroyed the object and showed the restart panel. */
  datatype Vampire = Vampire(
    cfg: Config,
    toBatFrames: seq<Sprite>,
    batPoints: int,
    health: int,
    isDead: bool,
    isBat: bool,
    anim: Machine,
    movement: Machine,
    destroyed: bool)

  /** Both machines are consistent with their hook history and carry their own
      ids, every running state was installed by `now`, and `move[0]` exists
      (`Start` reads it, so a vampire without it never starts). */
  predicate Ready(v: Vampire, now: nat)
  {
    && |v.cfg.move| > 0
    && SM.Valid(v.anim) && v.anim.id == AnimationMachine
    && SM.Valid(v.movement) && v.movement.id == MovementMachine
    && MachineStartedBy(v.anim, now)
    && MachineStartedBy(v.movement, now)
  }

  lemma ReadyLater(v: Vampire, now: nat, later: nat)
    requires Ready(v, now) && now <= later
    ensures Ready(v, later)
  {
  }

  predicate IsMachine(id: SM.MachineId)
  {
    id == AnimationMachine || id == MovementMachine
  }

  function MachineOf(v: Vampire, id: SM.MachineId): Machine
    requires IsMachine(id)
  {
    if id == AnimationMachine then v.anim else v.movement
  }

  function WithMachine(v: Vampire, id: SM.MachineId, m: Machine): Vampire
    requires IsMachine(id)
  {
    if id == AnimationMachine then v.(anim := m) else v.(movement := m)
  }

  /** `ChangeState` on one of the two machines; the other is untouched. */
  function ChangeOn(v: Vampire, id: SM.MachineId, s: State): (r: Vampire)
    requires IsMachine(id)
    ensures SM.Current(MachineOf(r, id)) == Some(s)
    ensures r == WithMachine(v, id, MachineOf(r, id))
    ensures forall now :: Ready(v, now) && StartedBy(s, now) ==> Ready(r, now)
  {
    WithMachine(v, id, SM.ChangeState(MachineOf(v, id), s))
  }

  // ---------------------------------------------------------------- properties

  /** The `batPoints` setter: values above the pool size are cut to it; any
      other value, negative ones included, is stored as given. */
  function SetBatPoints(v: Vampire, value: int): (r: Vampire)
    ensures r.batPoints <= v.cfg.totalBatPoints && r.batPoints <= value
    ensures r.batPoints == value || r.batPoints == v.cfg.totalBatPoints
    ensures value <= v.cfg.totalBatPoints ==> r.batPoints == value
    ensures r == v.(batPoints := r.batPoints)
  {
    if value > v.cfg.totalBatPoints then v.(batPoints := v.cfg.totalBatPoints)
    else v.(batPoints := value)
  }

  /** `KillVampire`: freeze movement in the empty stunned state and play the
      death animation. */
  function KillVampire(v: Vampire, now: nat): (r: Vampire)
    ensures SM.Current(r.movement) == Some(VampireStunned)
    ensures SM.Current(r.anim) == Some(VampireDeath(Clip(v.cfg.death, DeathFps, now)))
    ensures r == v.(anim := r.anim, movement := r.movement)
    ensures Ready(v, now) ==> Ready(r, now)
  {
    var v1 := ChangeOn(v, MovementMachine, VampireStunned);
    ChangeOn(v1, AnimationMachine, VampireDeath(Clip(v.cfg.death, DeathFps, now)))
  }

  /** The vampire is killed by this assignment to `Health`. */
  predicate Kills(v: Vampire, value: int)
  {
    value <= 0 && !v.isDead
  }

  /** The `Health` setter: stores the value cut to 100, and the first time a
      value at or below zero is assigned it latches `isDead` and kills the
      vampire. Later non-positive values change nothing but the stored
      health. */
  function SetHealth(v: Vampire, value: int, now: nat): (r: Vampire)
    ensures r.health <= MaxHealth && r.health <= value
    ensures r.health == value || r.health == MaxHealth
    ensures value <= MaxHealth ==> r.health == value
    ensures r.isDead <==> v.isDead || value <= 0
    ensures Kills(v, value) ==> r == KillVampire(v.(health := r.health, isDead := true), now)
    ensures !Kills(v, value) ==> r == v.(health := r.health, isDead := r.isDead)
    ensures Ready(v, now) ==> Ready(r, now)
  {
    var stored := if value > MaxHealth then MaxHealth else value;
    if value <= 0 && !v.isDead then KillVampire(v.(health := stored, isDead := true), now)
    else v.(health := stored)
  }

  /** Once dead, no assignment to `Health` touches either machine again:
      `KillVampire` runs at most once. */
  lemma DeathLatch(v: Vampire, value: int, now: nat)
    requires v.isDead
    ensures SetHealth(v, value, now).anim == v.anim
    ensures SetHealth(v, value, now).movement == v.movement
    ensures SetHealth(v, value, now).isDead
  {
  }

  /** Number of assignments along a run that kill the vampire. */
  function KillCount(v: Vampire, values: seq<int>, now: nat): nat
    decreases |values|
  {
    if |values| == 0 then 0
    else (if Kills(v, values[0]) then 1 else 0) + KillCount(SetHealth(v, values[0], now), values[1..], now)
  }

  /** However many times health is assigned, the vampire is killed at most
      once, and not at all if it was already dead. */
  lemma {:induction false} KilledAtMostOnce(v: Vampire, values: seq<int>, now: nat)
    ensures KillCount(v, values, now) <= (if v.isDead then 0 else 1)
    decreases |values|
  {
    if |values| > 0 {
      KilledAtMostOnce(SetHealth(v, values[0], now), values[1..], now);
    }
  }

  /** `Start`: idle sprite on the animation machine, normal movement on the
      movement machine, and a full bat-point pool (through the setter). The
      health field starts at 100. */
  function Start(cfg: Config, toBatFrames: seq<Sprite>, now: nat): (v: Vampire)
    requires |cfg.move| > 0
    ensures Ready(v, now)
    ensures SM.Current(v.anim) == Some(IdleWithSprite(cfg.move[0]))
    ensures SM.Current(v.movement) == Some(VampireNormalMovement)
    ensures v.batPoints == cfg.totalBatPoints && v.health == MaxHealth
    ensures !v.isDead && !v.isBat && !v.destroyed && v.toBatFrames == toBatFrames
    ensures v.cfg == cfg
  {
    var v0 := Vampire(cfg, toBatFrames, 0, MaxHealth, false, false,
                      SM.New(AnimationMachine), SM.New(MovementMachine), false);
    var v1 := ChangeOn(v0, AnimationMachine, IdleWithSprite(cfg.move[0]));
    var v2 := ChangeOn(v1, MovementMachine, VampireNormalMovement);
    SetBatPoints(v2, cfg.totalBatPoints)
  }

  /** The form-change idiom used in three places: install a metamorphosis
      towards the other form, whose `OnStart` reverses the shared array when
      it goes back to human form, then flip `isBat`. */
  function Transform(v: Vampire, now: nat): (r: Vampire)
    ensures r.isBat == !v.isBat
    ensures SM.Current(r.anim) == Some(VampireMetamorphosis(MorphFps, now, !v.isBat))
    ensures r.toBatFrames == if v.isBat then Reverse(v.toBatFrames) else v.toBatFrames
    ensures r == v.(anim := r.anim, toBatFrames := r.toBatFrames, isBat := r.isBat)
    ensures Ready(v, now) ==> Ready(r, now)
  {
    var toBat := !v.isBat;
    var v1 := ChangeOn(v, AnimationMachine, VampireMetamorphosis(MorphFps, now, toBat));
    var v2 := if !toBat then v1.(toBatFrames := Reverse(v1.toBatFrames)) else v1;
    v2.(isBat := toBat)
  }

  /** The bat-point total after one second's drain (in bat form) or regeneration. */
  function Drained(v: Vampire): int
  {
    if v.isBat then v.batPoints - v.cfg.batDeplete else v.batPoints + v.cfg.batRegen
  }

  /** The once-a-second block of `FixedUpdate`: drain or regenerate through
      the setter; if that leaves the pool empty or negative, store 0 (through
      the setter again) and change form. */
  function BatSecond(v: Vampire, now: nat): (r: Vampire)
    ensures var stored := SetBatPoints(v, Drained(v)).batPoints;
      && (stored > 0 ==> r == v.(batPoints := stored))
      && (stored <= 0 ==>
            && r.isBat == !v.isBat
            && r.batPoints == SetBatPoints(v, 0).batPoints
            && SM.Current(r.anim) == Some(VampireMetamorphosis(MorphFps, now, !v.isBat))
            && r.toBatFrames == (if v.isBat then Reverse(v.toBatFrames) else v.toBatFrames)
            && r == v.(batPoints := r.batPoints, isBat := r.isBat, anim := r.anim, toBatFrames := r.toBatFrames))
    ensures v.cfg.totalBatPoints >= 0 && r.isBat != v.isBat ==> r.batPoints == 0
    ensures r.isDead == v.isDead && r.movement == v.movement
    ensures Ready(v, now) ==> Ready(r, now)
  {
    var v1 := SetBatPoints(v, Drained(v));
    if v1.batPoints <= 0 then Transform(SetBatPoints(v1, 0), now) else v1
  }

  /** What the bite changes besides the vampire. */
  datatype Bite = Bite(vampire: Vampire, game: MainGameController.Game, target: Option<Patient.Patient>)

  /** The bite counts on a patient lying in bed. The ray only reports
      patients whose collider is enabled, so one already bitten is never hit
      again. */
  predicate BiteCounts(target: Option<Patient.Patient>)
  {
    target.Some? && target.value.colliderEnabled && !target.value.walking
  }

  /** `Attack`: `target` is the patient the downward ray hits, if any. Only a
      patient that is no longer walking is bitten; then the score goes up by
      exactly one and `health_restored` is added through the `Health`
      setter. */
  function Attack(v: Vampire, g: MainGameController.Game, target: Option<Patient.Patient>, now: nat): (r: Bite)
    ensures !BiteCounts(target) ==> r == Bite(v, g, target)
    ensures BiteCounts(target) ==>
      && r.game.score == g.score + 1 && r.game.beds == g.beds
      && r.target == Some(Patient.Bitten(target.value, now))
      && r.vampire == SetHealth(v, v.health + v.cfg.healthRestored, now)
    ensures BiteCounts(target) ==> !BiteCounts(r.target)
    ensures r.vampire.anim == v.anim || (r.vampire.isDead && !v.isDead)
    ensures v.isDead ==> r.vampire.isDead
    ensures Ready(v, now) ==> Ready(r.vampire, now)
  {
    if BiteCounts(target) then
      var p := Patient.Bitten(target.value, now);
      var g1 := MainGameController.SetScore(g, g.score + 1);
      Bite(SetHealth(v, v.health + v.cfg.healthRestored, now), g1, Some(p))
    else Bite(v, g, target)
  }

  /** `OnTriggerEnter`/`OnTriggerStay` with a hunter: damage only when the
      hunter is not hiding and the cooldown has run out; the second component
      says whether the cooldown timer is reset. */
  function HunterContact(v: Vampire, hiding: bool, cooldownElapsed: bool, now: nat): (r: (Vampire, bool))
    ensures r.1 <==> !hiding && cooldownElapsed
    ensures r.1 ==> r.0 == SetHealth(v, v.health - v.cfg.damageTaken, now)
    ensures !r.1 ==> r.0 == v
    ensures Ready(v, now) ==> Ready(r.0, now)
  {
    if !hiding && cooldownElapsed then (SetHealth(v, v.health - v.cfg.damageTaken, now), true)
    else (v, false)
  }

  /** `PassiveDamage`, invoked once a second. */
  function PassiveDamage(v: Vampire, now: nat): (r: Vampire)
    ensures r.health == v.health - v.cfg.continuousDamage || r.health == MaxHealth
    ensures v.health - v.cfg.continuousDamage <= MaxHealth ==> r.health == v.health - v.cfg.continuousDamage
    ensures r.isDead <==> v.isDead || v.health - v.cfg.continuousDamage <= 0
    ensures !Kills(v, v.health - v.cfg.continuousDamage) ==> r == v.(health := r.health, isDead := r.isDead)
    ensures Kills(v, v.health - v.cfg.continuousDamage) ==>
      && SM.Current(r.movement) == Some(VampireStunned)
      && SM.Current(r.anim) == Some(VampireDeath(Clip(v.cfg.death, DeathFps, now)))
    ensures Ready(v, now) ==> Ready(r, now)
  {
    SetHealth(v, v.health - v.cfg.continuousDamage, now)
  }

  // ---------------------------------------------------------------- states

  /** Keyboard state of one frame: `pressed` are the keys that went down this
      frame, `held` the keys that are down. `damageOver` says the damaged
      state's countdown has gone below zero. */
  datatype Input = Input(now: nat, pressed: set<Key>, held: set<Key>, damageOver: bool)

  /** What one state's `OnUpdate` leaves behind. */
  datatype Outcome = Outcome(
    vampire: Vampire,
    game: MainGameController.Game,
    target: Option<Patient.Patient>,
    shown: Option<Sprite>)

  /** The arrow keys in the order the idle state tests them. */
  const Arrows: seq<Key> := [DownArrow, UpArrow, RightArrow, LeftArrow]

  /** The walk that an arrow key starts from the idle state. */
  function Walk(v: Vampire, key: Key, now: nat): State
  {
    PlayAnimationForHeldKey(Clip(v.cfg.move, WalkFps, now), key)
  }

  /** The last key of `keys` that was pressed, if any. */
  function LastPressed(keys: seq<Key>, pressed: set<Key>): Option<Key>
  {
    if |keys| == 0 then None
    else if keys[|keys| - 1] in pressed then Some(keys[|keys| - 1])
    else LastPressed(keys[..|keys| - 1], pressed)
  }

  /** `StateIdleWithSprite.OnUpdate`: every arrow pressed this frame, checked
      in order, changes the machine to a walk for that key; so when several
      arrive together the last one checked wins, after the earlier walks were
      each started and finished. */
  function PressArrows(v: Vampire, id: SM.MachineId, keys: seq<Key>, pressed: set<Key>, now: nat): (r: Vampire)
    requires IsMachine(id)
    ensures LastPressed(keys, pressed).None? ==> r == v
    ensures LastPressed(keys, pressed).Some? ==>
      SM.Current(MachineOf(r, id)) == Some(Walk(v, LastPressed(keys, pressed).value, now))
    ensures r == WithMachine(v, id, MachineOf(r, id))
    ensures Ready(v, now) ==> Ready(r, now)
    decreases |keys|
  {
    if |keys| == 0 then v
    else
      var v1 := PressArrows(v, id, keys[..|keys| - 1], pressed, now);
      var last := keys[|keys| - 1];
      if last in pressed then ChangeOn(v1, id, Walk(v1, last, now)) else v1
  }

  /** `StatePlayAnimationForHeldKey.OnUpdate`: with sprites, show the frame of
      the tick and, once the key is no longer held, change to idle on the
      first frame. An empty array returns first, so that walk never ends. */
  function HeldKeyOnUpdate(v: Vampire, id: SM.MachineId, c: Clip, key: Key, held: set<Key>, now: nat): (r: (Vampire, Option<Sprite>))
    requires IsMachine(id) && c.start <= now
    ensures r.1 == SpriteShown(c.frames, c.fps, c.start, now)
    ensures |c.frames| > 0 && key !in held ==>
      r.0 == ChangeOn(v, id, IdleWithSprite(c.frames[0]))
    ensures !(|c.frames| > 0 && key !in held) ==> r.0 == v
  {
    var shown := SpriteShown(c.frames, c.fps, c.start, now);
    if |c.frames| == 0 then (v, shown)
    else if key !in held then (ChangeOn(v, id, IdleWithSprite(c.frames[0])), shown)
    else (v, shown)
  }

  /** `StateVampireNormalMovement.OnUpdate` (velocity and the wolf call are
      left out). The human-form test is made once: A with bat points left
      starts the change to bat form, and D in the same frame still attacks. */
  function NormalMovementOnUpdate(v: Vampire, input: Input, g: MainGameController.Game, target: Option<Patient.Patient>): (r: Bite)
    ensures v.isBat ==> r == Bite(v, g, target)
    ensures !v.isBat && KeyD !in input.pressed ==>
      r.vampire == (if KeyA in input.pressed && v.batPoints > 0 then Transform(v, input.now) else v)
      && r.game == g && r.target == target
    ensures !v.isBat && KeyD in input.pressed ==>
      SM.Current(r.vampire.anim) == Some(VampireAttack(Clip(v.cfg.attack, AttackFps, input.now)))
      || r.vampire.isDead
    ensures !v.isBat && KeyD in input.pressed && BiteCounts(target) ==>
      && r.game.score == g.score + 1 && r.game.beds == g.beds
      && r.target == Some(Patient.Bitten(target.value, input.now))
    ensures !v.isBat && KeyD in input.pressed && !BiteCounts(target) ==>
      r.game == g && r.target == target
    ensures v.isDead ==> r.vampire.isDead
    ensures Ready(v, input.now) ==> Ready(r.vampire, input.now)
  {
    if v.isBat then Bite(v, g, target)
    else
      var v1 := if KeyA in input.pressed && v.batPoints > 0 then Transform(v, input.now) else v;
      if KeyD in input.pressed then
        var v2 := ChangeOn(v1, AnimationMachine, VampireAttack(Clip(v.cfg.attack, AttackFps, input.now)));
        Attack(v2, g, target, input.now)
      else Bite(v1, g, target)
  }

  /** `StateBatMovement.OnUpdate` (velocity left out): A in bat form starts the
      change back to human form. */
  function BatMovementOnUpdate(v: Vampire, pressed: set<Key>, now: nat): (r: Vampire)
    ensures KeyA in pressed && v.isBat ==> r == Transform(v, now)
    ensures !(KeyA in pressed && v.isBat) ==> r == v
  {
    if KeyA in pressed && v.isBat then Transform(v, now) else v
  }

  /** `StateVampireMetamorphosis.OnUpdate`: play the shared array; on the
      last frame settle into the new form on both machines, and after a
      change back to human form reverse the shared array again. */
  function MetamorphosisOnUpdate(v: Vampire, fps: nat, start: nat, toBat: bool, now: nat): (r: (Vampire, Option<Sprite>))
    requires start <= now && |v.cfg.move| > 0
    ensures r.1 == SpriteShown(v.toBatFrames, fps, start, now)
    ensures !Completes(v.toBatFrames, fps, start, now) ==> r.0 == v
    ensures Completes(v.toBatFrames, fps, start, now) && toBat ==>
      && SM.Current(r.0.anim) == Some(BatAnimation(Clip(v.cfg.bat, BatFps, now)))
      && SM.Current(r.0.movement) == Some(BatMovement)
      && r.0.toBatFrames == v.toBatFrames
    ensures Completes(v.toBatFrames, fps, start, now) && !toBat ==>
      && SM.Current(r.0.anim) == Some(IdleWithSprite(v.cfg.move[0]))
      && SM.Current(r.0.movement) == Some(VampireNormalMovement)
      && r.0.toBatFrames == Reverse(v.toBatFrames)
    ensures r.0 == v.(anim := r.0.anim, movement := r.0.movement, toBatFrames := r.0.toBatFrames)
    ensures Ready(v, now) ==> Ready(r.0, now)
  {
    var shown := SpriteShown(v.toBatFrames, fps, start, now);
    if !Completes(v.toBatFrames, fps, start, now) then (v, shown)
    else if toBat then
      var v1 := ChangeOn(v, AnimationMachine, BatAnimation(Clip(v.cfg.bat, BatFps, now)));
      (ChangeOn(v1, MovementMachine, BatMovement), shown)
    else
      var v1 := ChangeOn(v, AnimationMachine, IdleWithSprite(v.cfg.move[0]));
      var v2 := ChangeOn(v1, MovementMachine, VampireNormalMovement);
      (v2.(toBatFrames := Reverse(v2.toBatFrames)), shown)
  }

  /** `StateVampireAttack.OnUpdate`: on the last frame, and only then, go back
      to idle. */
  function AttackOnUpdate(v: Vampire, c: Clip, now: nat): (r: (Vampire, Option<Sprite>))
    requires c.start <= now && |v.cfg.move| > 0
    ensures r.1 == SpriteShown(c.frames, c.fps, c.start, now)
    ensures Completes(c.frames, c.fps, c.start, now) ==>
      r.0 == ChangeOn(v, AnimationMachine, IdleWithSprite(v.cfg.move[0]))
    ensures !Completes(c.frames, c.fps, c.start, now) ==> r.0 == v
  {
    var shown := SpriteShown(c.frames, c.fps, c.start, now);
    if Completes(c.frames, c.fps, c.start, now) then
      (ChangeOn(v, AnimationMachine, IdleWithSprite(v.cfg.move[0])), shown)
    else (v, shown)
  }

  /** `StateVampireDeath.OnUpdate`: on the last frame, and only then, destroy
      the vampire and show the restart panel. */
  function DeathOnUpdate(v: Vampire, c: Clip, now: nat): (r: (Vampire, Option<Sprite>))
    requires c.start <= now
    ensures r.1 == SpriteShown(c.frames, c.fps, c.start, now)
    ensures r.0.destroyed <==> v.destroyed || Completes(c.frames, c.fps, c.start, now)
    ensures r.0 == v.(destroyed := r.0.destroyed)
  {
    var shown := SpriteShown(c.frames, c.fps, c.start, now);
    if Completes(c.frames, c.fps, c.start, now) then (v.(destroyed := true), shown) else (v, shown)
  }

  /** `StateVampireDamaged.OnUpdate`: once the countdown is over the state
      concludes itself, emptying the machine its back-reference names. */
  function DamagedOnUpdate(v: Vampire, id: SM.MachineId, damageOver: bool): (r: Vampire)
    requires IsMachine(id) && MachineOf(v, id).current.Some? && MachineOf(v, id).current.value.machine == id
    ensures damageOver ==> SM.IsFinished(MachineOf(r, id)) && r == WithMachine(v, id, SM.Reset(MachineOf(v, id)))
    ensures !damageOver ==> r == v
  {
    if damageOver then
      var machines := map[AnimationMachine := v.anim, MovementMachine := v.movement];
      var after := SM.ConcludeState(machines, MachineOf(v, id).current.value);
      v.(anim := after[AnimationMachine], movement := after[MovementMachine])
    else v
  }

  /** `StateMachine.Update` on one of the vampire's machines followed by the
      running state's `OnUpdate`: the single dispatch over every state kind. */
  function Tick(v: Vampire, id: SM.MachineId, input: Input, g: MainGameController.Game, target: Option<Patient.Patient>): (r: Outcome)
    requires IsMachine(id) && Ready(v, input.now)
    ensures SM.IsFinished(MachineOf(v, id)) ==> r == Outcome(v, g, target, None)
    ensures Ready(r.vampire, input.now)
    ensures v.isDead ==> r.vampire.isDead
  {
    var m := MachineOf(v, id);
    if m.current.None? then Outcome(v, g, target, None)
    else
      var now := input.now;
      var v1 := WithMachine(v, id, SM.Update(m));
      assert Ready(v1, now);
      match m.current.value.state
      case IdleWithSprite(_) =>
        Outcome(PressArrows(v1, id, Arrows, input.pressed, now), g, target, None)
      case PlayAnimationForHeldKey(c, key) =>
        var (v2, shown) := HeldKeyOnUpdate(v1, id, c, key, input.held, now);
        Outcome(v2, g, target, shown)
      case VampireNormalMovement =>
        var b := NormalMovementOnUpdate(v1, input, g, target);
        Outcome(b.vampire, b.game, b.target, None)
      case VampireMetamorphosis(fps, start, toBat) =>
        var (v2, shown) := MetamorphosisOnUpdate(v1, fps, start, toBat, now);
        Outcome(v2, g, target, shown)
      case BatMovement =>
        Outcome(BatMovementOnUpdate(v1, input.pressed, now), g, target, None)
      case BatAnimation(c) =>
        Outcome(v1, g, target, Loop(c, now))
      case VampireAttack(c) =>
        var (v2, shown) := AttackOnUpdate(v1, c, now);
        Outcome(v2, g, target, shown)
      case VampireDamaged =>
        Outcome(DamagedOnUpdate(v1, id, input.damageOver), g, target, None)
      case VampireDeath(c) =>
        var (v2, shown) := DeathOnUpdate(v1, c, now);
        Outcome(v2, g, target, shown)
      case VampireStunned =>
        Outcome(v1, g, target, None)
      case PlayMovementAnimation(c) =>
        Outcome(v1, g, target, Loop(c, now))
      case AIPlayAnimation(c) =>
        Outcome(v1, g, target, Loop(c, now))
      case TitleAnimationState(c) =>
        Outcome(v1, g, target, Loop(c, now))
  }

  /** `Vampire.Update`: tick the animation machine (the hit-cooldown timer is
      left out). */
  function Update(v: Vampire, input: Input, g: MainGameController.Game): (r: Outcome)
    requires Ready(v, input.now)
    ensures Ready(r.vampire, input.now)
  {
    Tick(v, AnimationMachine, input, g, None)
  }

  /** `Vampire.FixedUpdate`: tick the movement machine, then, when the
      one-second bat timer has run over, drain or regenerate bat points. */
  function FixedUpdate(v: Vampire, input: Input, g: MainGameController.Game, target: Option<Patient.Patient>, batSecondDue: bool): (r: Outcome)
    requires Ready(v, input.now)
    ensures Ready(r.vampire, input.now)
    ensures v.isDead ==> r.vampire.isDead
  {
    var o := Tick(v, MovementMachine, input, g, target);
    if batSecondDue then o.(vampire := BatSecond(o.vampire, input.now)) else o
  }

  // ---------------------------------------------------------------- lemmas

  /** An idle animation state starts the walk of the last arrow key pressed
      this frame; with no arrow pressed the tick only records the hook. */
  lemma IdleStartsWalk(v: Vampire, sp: Sprite, input: Input, g: MainGameController.Game)
    requires Ready(v, input.now)
    requires SM.Current(v.anim) == Some(IdleWithSprite(sp))
    ensures var r := Update(v, input, g);
      && r.game == g && r.target.None? && r.shown.None?
      && (LastPressed(Arrows, input.pressed).Some? ==>
            SM.Current(r.vampire.anim) == Some(Walk(v, LastPressed(Arrows, input.pressed).value, input.now)))
      && (LastPressed(Arrows, input.pressed).None? ==> r.vampire == v.(anim := SM.Update(v.anim)))
      && r.vampire.movement == v.movement
  {
  }

  /** An arrow key is the last one pressed when it is pressed and no arrow
      tested after it is. */
  lemma {:induction false} LastPressedIsLast(keys: seq<Key>, pressed: set<Key>, i: nat)
    requires i < |keys| && keys[i] in pressed
    requires forall j :: i < j < |keys| ==> keys[j] !in pressed
    ensures LastPressed(keys, pressed) == Some(keys[i])
    decreases |keys|
  {
    if i < |keys| - 1 {
      LastPressedIsLast(keys[..|keys| - 1], pressed, i);
    }
  }

  /** Any single arrow key pressed on its own starts its walk. */
  lemma OneArrowStartsItsWalk(v: Vampire, sp: Sprite, key: Key, input: Input, g: MainGameController.Game)
    requires Ready(v, input.now)
    requires SM.Current(v.anim) == Some(IdleWithSprite(sp))
    requires key in Arrows && key in input.pressed
    requires forall k :: k in Arrows && k in input.pressed ==> k == key
    ensures SM.Current(Update(v, input, g).vampire.anim) == Some(Walk(v, key, input.now))
  {
    var i :| 0 <= i < |Arrows| && Arrows[i] == key;
    forall j | i < j < |Arrows|
      ensures Arrows[j] !in input.pressed
    {
      assert Arrows[j] != key;
    }
    LastPressedIsLast(Arrows, input.pressed, i);
    IdleStartsWalk(v, sp, input, g);
  }

  /** A movement tick in normal movement runs `NormalMovementOnUpdate` on
      the ticked machine and writes no sprite. */
  lemma FixedUpdateRunsNormalMovement(v: Vampire, input: Input, g: MainGameController.Game, target: Option<Patient.Patient>)
    requires Ready(v, input.now)
    requires SM.Current(v.movement) == Some(VampireNormalMovement)
    ensures var b := NormalMovementOnUpdate(v.(movement := SM.Update(v.movement)), input, g, target);
      FixedUpdate(v, input, g, target, false) == Outcome(b.vampire, b.game, b.target, None)
  {
  }

  /** D in human form bites a patient lying in bed: the score rises by one
      and the patient is bitten. */
  lemma AttackKeyBites(v: Vampire, input: Input, g: MainGameController.Game, target: Option<Patient.Patient>)
    requires Ready(v, input.now) && !v.isBat
    requires SM.Current(v.movement) == Some(VampireNormalMovement)
    requires KeyD in input.pressed && BiteCounts(target)
    ensures var r := FixedUpdate(v, input, g, target, false);
      && r.game.score == g.score + 1 && r.game.beds == g.beds
      && r.target == Some(Patient.Bitten(target.value, input.now))
  {
    FixedUpdateRunsNormalMovement(v, input, g, target);
  }

  /** A movement tick in bat movement runs `BatMovementOnUpdate`: A starts
      the change back to human form. */
  lemma FixedUpdateRunsBatMovement(v: Vampire, input: Input, g: MainGameController.Game, target: Option<Patient.Patient>)
    requires Ready(v, input.now)
    requires SM.Current(v.movement) == Some(BatMovement)
    ensures var r := FixedUpdate(v, input, g, target, false);
      && r == Outcome(BatMovementOnUpdate(v.(movement := SM.Update(v.movement)), input.pressed, input.now), g, target, None)
      && (KeyA in input.pressed && v.isBat ==>
            SM.Current(r.vampire.anim) == Some(VampireMetamorphosis(MorphFps, input.now, false)))
  {
  }

  /** Bat flight loops its sprites and changes nothing but the hook record. */
  lemma BatFlightLoops(v: Vampire, c: Clip, input: Input, g: MainGameController.Game)
    requires Ready(v, input.now)
    requires SM.Current(v.anim) == Some(BatAnimation(c))
    ensures c.start <= input.now
    ensures var r := Update(v, input, g);
      r == Outcome(v.(anim := SM.Update(v.anim)), g, None, Loop(c, input.now))
  {
  }

  /** The damaged state concludes itself once its countdown is over, leaving
      its machine empty; until then the tick only records the hook. */
  lemma DamagedConcludes(v: Vampire, id: SM.MachineId, input: Input, g: MainGameController.Game, target: Option<Patient.Patient>)
    requires IsMachine(id) && Ready(v, input.now)
    requires SM.Current(MachineOf(v, id)) == Some(VampireDamaged)
    ensures var r := Tick(v, id, input, g, target);
      && r.game == g && r.target == target && r.shown.None?
      && (input.damageOver ==> SM.IsFinished(MachineOf(r.vampire, id)))
      && (!input.damageOver ==> r.vampire == WithMachine(v, id, SM.Update(MachineOf(v, id))))
  {
  }

  /** When its second is due, `FixedUpdate` runs `BatSecond` after the
      movement tick; otherwise it is the movement tick alone. */
  lemma FixedUpdateDrains(v: Vampire, input: Input, g: MainGameController.Game, target: Option<Patient.Patient>)
    requires Ready(v, input.now)
    ensures var o := Tick(v, MovementMachine, input, g, target);
      && FixedUpdate(v, input, g, target, true) == o.(vampire := BatSecond(o.vampire, input.now))
      && FixedUpdate(v, input, g, target, false) == o
  {
  }

  /** An attack animation returns to idle on the tick that shows its last
      frame, and on no other tick. */
  lemma AttackEndsOnLastFrame(v: Vampire, c: Clip, input: Input, g: MainGameController.Game)
    requires Ready(v, input.now)
    requires SM.Current(v.anim) == Some(VampireAttack(c))
    ensures var r := Update(v, input, g).vampire;
      SM.Current(r.anim) == (if Completes(c.frames, c.fps, c.start, input.now)
                             then Some(IdleWithSprite(v.cfg.move[0]))
                             else Some(VampireAttack(c)))
  {
  }

  /** The death animation destroys the vampire on the tick that shows its last
      frame, and on no other tick. */
  lemma DeathEndsOnLastFrame(v: Vampire, c: Clip, input: Input, g: MainGameController.Game)
    requires Ready(v, input.now) && !v.destroyed
    requires SM.Current(v.anim) == Some(VampireDeath(c))
    ensures Update(v, input, g).vampire.destroyed <==> OnLastFrame(input.now - c.start, c.fps, |c.frames|)
  {
    CompletesIsLastFrame(c.frames, c.fps, c.start, input.now);
  }

  /** A walk ends exactly when its key is released, and only if it has
      sprites. */
  lemma WalkEndsOnRelease(v: Vampire, c: Clip, key: Key, input: Input, g: MainGameController.Game)
    requires Ready(v, input.now)
    requires SM.Current(v.anim) == Some(PlayAnimationForHeldKey(c, key))
    ensures var r := Update(v, input, g).vampire;
      SM.Current(r.anim) == (if |c.frames| > 0 && key !in input.held
                             then Some(IdleWithSprite(c.frames[0]))
                             else Some(PlayAnimationForHeldKey(c, key)))
  {
  }

  /** The stunned state does nothing: a movement tick only records the hook. */
  lemma StunnedDoesNothing(v: Vampire, input: Input, g: MainGameController.Game, target: Option<Patient.Patient>)
    requires Ready(v, input.now)
    requires SM.Current(v.movement) == Some(VampireStunned)
    ensures var r := Tick(v, MovementMachine, input, g, target);
      && r.vampire == v.(movement := SM.Update(v.movement))
      && r.game == g && r.target == target && r.shown.None?
  {
  }

  /** Killing leaves the vampire stunned and dying, whatever it was doing. */
  lemma KillingStunsAndPlaysDeath(v: Vampire, value: int, now: nat)
    requires Ready(v, now) && Kills(v, value)
    ensures var r := SetHealth(v, value, now);
      && r.isDead
      && SM.Current(r.movement) == Some(VampireStunned)
      && SM.Current(r.anim) == Some(VampireDeath(Clip(v.cfg.death, DeathFps, now)))
      && Ready(r, now)
  {
  }

  /** A change back to human form that runs to its last frame leaves the
      shared `toBat` array in its original order: reversed when the
      metamorphosis starts, reversed again when it completes. */
  lemma ToHumanRestoresSharedArray(v: Vampire, t0: nat, input: Input, g: MainGameController.Game)
    requires Ready(v, t0) && v.isBat && t0 <= input.now
    requires Completes(Reverse(v.toBatFrames), MorphFps, t0, input.now)
    ensures var morphing := Transform(v, t0);
      var r := Update(morphing, input, g).vampire;
      && !r.isBat
      && r.toBatFrames == v.toBatFrames
      && SM.Current(r.anim) == Some(IdleWithSprite(v.cfg.move[0]))
      && SM.Current(r.movement) == Some(VampireNormalMovement)
  {
    var morphing := Transform(v, t0);
    ReadyLater(morphing, t0, input.now);
    UpdateRunsMetamorphosis(morphing, t0, false, input, g);
    var v1 := morphing.(anim := SM.Update(morphing.anim));
    assert v1.toBatFrames == Reverse(v.toBatFrames);
    var r := MetamorphosisOnUpdate(v1, MorphFps, t0, false, input.now).0;
    assert r.toBatFrames == Reverse(Reverse(v.toBatFrames));
    ReverseReverse(v.toBatFrames);
  }

  /** An animation tick of a running metamorphosis is its `OnUpdate` on the
      ticked machine. */
  lemma UpdateRunsMetamorphosis(v: Vampire, start: nat, toBat: bool, input: Input, g: MainGameController.Game)
    requires Ready(v, input.now)
    requires SM.Current(v.anim) == Some(VampireMetamorphosis(MorphFps, start, toBat))
    ensures start <= input.now
    ensures Update(v, input, g).vampire
         == MetamorphosisOnUpdate(v.(anim := SM.Update(v.anim)), MorphFps, start, toBat, input.now).0
  {
  }

  /** A change to bat form that runs to its last frame settles into bat
      flight on both machines and leaves the shared array as it was. */
  lemma ToBatSettles(v: Vampire, t0: nat, input: Input, g: MainGameController.Game)
    requires Ready(v, t0) && !v.isBat && t0 <= input.now
    requires Completes(v.toBatFrames, MorphFps, t0, input.now)
    ensures var morphing := Transform(v, t0);
      var r := Update(morphing, input, g).vampire;
      && r.isBat
      && r.toBatFrames == v.toBatFrames
      && SM.Current(r.anim) == Some(BatAnimation(Clip(v.cfg.bat, BatFps, input.now)))
      && SM.Current(r.movement) == Some(BatMovement)
  {
    var morphing := Transform(v, t0);
    ReadyLater(morphing, t0, input.now);
    UpdateRunsMetamorphosis(morphing, t0, true, input, g);
  }
}

=== FILE: wrappers.dfy ===
/** Option and Result, used where the game either has nothing (an empty state
    machine, no raycast hit) or fails (an exception in the C# code). */
module Wrappers {

  datatype Option<+T> = None | Some(value: T)

  /** The C# runtime faults that the modelled code can raise on bad data. */
  datatype Fault =
    | DivideByZero        // `x % 0` on an empty sprite array
    /** An index outside a collection: the empty candidate `List<int>`
        (`ArgumentOutOfRangeException`) or a bed number outside the
        availability array (`IndexOutOfRangeException`). */
    | IndexOutOfRange

  datatype Result<+T> = Ok(value: T) | Err(fault: Fault)
}
